=== FILE: README.md ===
# StaircaseFound: the ladder and shaft discovery tracker

StaircaseFound is a Stardew Valley mod. It tells the player when a ladder or
a shaft becomes visible on a mine level. A ladder is tile 173 on the
"Buildings" layer. A shaft is tile 174 and is recognised only beyond level 120,
in the Skull Cavern. This project models the mod's tracker in
`StaircaseFound/ModEntry.cs` as pure functions over an immutable session, and
proves properties of that model.

The tracker reacts to the host's callbacks:

- **Warp.** A warp schedules a session reset.
- **Update tick.** Each update tick runs the reset debounce (3 ticks). When the
  player is in a mine level, the reset allocates a fresh discovery grid for
  the level and runs an initial sweep. That sweep announces one summary, but
  only when "check on load" is on and it found something. Anywhere else, the
  reset only leaves mine mode. After a reset into a mine, a second debounce
  (5 ticks) makes the level "ready".
  A quirk: the reset outside a mine does not cancel a readiness debounce that
  a warp interrupted. That debounce goes on counting, so the level flag turns
  "ready" five ticks later with the player in no mine. The counter is also
  left running, so a later warp's reset debounce can be shorter.
  Nothing is scanned because of it, since the scans also require mine mode. Outside the debounces, a drop in the
  level's stone count triggers a sweep.
- **Per-second tick.** In a ready mine level, a drop in the monster count
  triggers a sweep.
- **Button press.** The action button pressed while holding a staircase sets a
  flag. The flag swallows the first ladder, in x-major order, found by the
  next incremental sweep. The mod means this to be the ladder the staircase
  made.

Every sweep marks newly visible cells in the grid. On an incremental sweep,
each new cell is announced with the sound "newArtifact" and a corner message,
each gated by its configuration switch.

Modules:

- `Options`, `Grids` (grids.dfy): optional values, `[x, y]` grids, and the
  x-major visiting order of the source's nested loops.
- `Text` (text.dfy): decimal rendering of the summary's counts and its inverse.
- `Discovery` (discovery.dfy): the scanner `TryFindLaddersOrShafts`.
  - The loop body is `Visit` and the loop is `SweepAll`. `Scan` is the whole
    call, including the summary.
  - They are backed by reference definitions. `Classify` says what a single
    cell shows. `Finds` lists the new discoveries. `Notices`,
    `DropFirstLadder` and `AggregateText` say what is announced.
- `DiscoveryFacts` (discovery_facts.dfy): the loop proved equal to the
  reference definitions, plus the facts about the summary text.
- `Tracker` (tracker.dfy):
  - the session (the mod's fields)
  - one function per callback and per private action of the source
  - `Step`, which dispatches one callback, and `Run`, which handles a sequence
    of callbacks
- `TrackerFacts` (tracker_facts.dfy): the debounces, the reset, the scan
  triggers, where the staircase flag can come from, how marks persist between
  resets, and that the configuration only gates output.

Host calls (`Game1.playSound`, `Game1.addHUDMessage`) become a list of
`Output` values, in the order the source makes them. The host world is a
parameter of each tick event. It is a `Host` view with three parts:

- the player's current location (`Mine` with its level, stones left, monster
  count and "Buildings" layer, or `Elsewhere`);
- the current contents of the tile layer captured at the last reset;
- the local player's facts (local, busy, held item, staircases held).

The captured layer is kept apart from the current location's layer. Between a
warp and its debounced reset, the source's monster poll reads the new
location's `mineLevel` but still scans the old level's tiles and grid.

The model follows the code, including behaviour that a reader of the mod's
description might not expect:

- Both debounces share one counter `ticks`, and a warp does not reset it.
- The reset tick itself already counts the first tick of the readiness
  debounce.
- No stone check runs while either debounce is counting.
- The remembered staircase count `numStaircasesInventory` (line 39) is never
  assigned. So the inventory check (lines 211-218), which is meant to catch a
  staircase used without the button, never fires; see
  `TrackerFacts.FlagOnlyFromButton`.
- In the summary, " and" is inserted only for two or more ladders, so one
  ladder and one shaft read "1 ladder 1 shaft have been found on this level!".
- With no ladders, the summary starts with a space.
- A monster killed and another spawned between two per-second polls leave the
  count unchanged, so no scan runs for the kill (the gap the source's comment
  at lines 265-266 admits).

## Model

| member | source | states |
|---|---|---|
| Grids.XMajor | StaircaseFound/ModEntry.cs:283-286 | The nested `for x`/`for y` loops visit every cell of the `xTilesLength × yTilesLength` array exactly once, in strictly increasing x-major order. |
| Grids.Filled | StaircaseFound/ModEntry.cs:241 | The freshly allocated discovery grid has the requested dimensions and every cell 0 (`Unknown`). |
| Text.ParseNatToString | StaircaseFound/ModEntry.cs:335-338 | The decimal form a count is interpolated as reads back as that count. |
| Text.NatToStringInjective | StaircaseFound/ModEntry.cs:335-338 | Different counts are printed differently. |
| Discovery.Classify | StaircaseFound/ModEntry.cs:287-318 | A cell shows a ladder exactly when its tile is non-null with index 173. It shows a shaft exactly when its index is 174 and the level is above 120. |
| Discovery.Notice | StaircaseFound/ModEntry.cs:299-303 | One discovery's announcement plays the sound only when sound is on and shows the message only when messages are on. It holds exactly those two calls, in that order: the sound "newArtifact", then the ladder or shaft text. |
| Discovery.Aggregate | StaircaseFound/ModEntry.cs:343-344 | The summary announcement shows the summary text only when messages are on and plays "newArtifact" only when sound is on. It holds nothing else, and the message comes before the sound. |
| Discovery.Scan | StaircaseFound/ModEntry.cs:273-351 | One call of the scanner keeps the grid's dimensions. Its full behaviour is stated by `DiscoveryFacts.ScanSpec`. |
| Discovery.Finds | StaircaseFound/ModEntry.cs:283-329 | A discovery is listed exactly when its cell was visited, was 0 in the grid and shows a ladder or shaft. |
| Discovery.Visit | StaircaseFound/ModEntry.cs:287-327 | The loop body writes only its own cell. A known cell keeps its mark; an unknown one takes what its tile shows. |
| Discovery.SweepAll | StaircaseFound/ModEntry.cs:283-329 | After the loop, each visited cell is updated as the loop body prescribes, and cells not visited are unchanged. |
| DiscoveryFacts.FindsAscending | StaircaseFound/ModEntry.cs:283-329 | Discoveries are found in the x-major order of their cells. |
| DiscoveryFacts.FindsFrame | StaircaseFound/ModEntry.cs:292-318 | Which cells are new depends only on the grid's values at the visited cells. |
| DiscoveryFacts.CountsCoverFinds | StaircaseFound/ModEntry.cs:280-325 | The initial ladder and shaft counters together count every discovery. |
| DiscoveryFacts.DropFirstLadderRemovesFirst | StaircaseFound/ModEntry.cs:299-305 | The staircase flag removes exactly the first new ladder from the announcements. Everything before and after it is kept in order, one ladder fewer and the same shafts. |
| DiscoveryFacts.DropFirstLadderNone | StaircaseFound/ModEntry.cs:299-305 | Without a new ladder, the flag suppresses nothing. |
| DiscoveryFacts.HasLadderCons | StaircaseFound/ModEntry.cs:290-305 | A list of discoveries holds a ladder exactly when its first entry is one or the rest holds one. |
| DiscoveryFacts.ReportsCons | StaircaseFound/ModEntry.cs:299-325 | The counts, the ladder test and the announcements of a discovery list split into its first entry and the rest. |
| DiscoveryFacts.VisitReports | StaircaseFound/ModEntry.cs:290-326 | One loop step against its discovery. A cell that is not new changes nothing. On an initial sweep a new cell is counted. On an incremental sweep a new ladder is swallowed by a set flag (clearing it) and every other new cell is announced. |
| DiscoveryFacts.SweepStep | StaircaseFound/ModEntry.cs:283-329 | The first visited cell does not affect which of the later cells are new. |
| DiscoveryFacts.SweepInitial | StaircaseFound/ModEntry.cs:299-325 | An initial sweep counts the new ladders and shafts, announces nothing and leaves the flag. |
| DiscoveryFacts.SweepIncremental | StaircaseFound/ModEntry.cs:299-325 | An incremental sweep announces every discovery in order, except that a set flag swallows the first ladder. The flag stays set only if there was no new ladder. |
| DiscoveryFacts.ScanSpec | StaircaseFound/ModEntry.cs:273-345 | One call of the scanner, stated against the reference definitions. The grid effect is given cell by cell, and the discoveries are listed once each in x-major order. An initial call announces only the summary, and only when "check on load" is on and something was found. An incremental call announces as `SweepIncremental` says. |
| DiscoveryFacts.ScanMarksFinds | StaircaseFound/ModEntry.cs:297-318 | Every discovery is written into the grid with its mark. |
| DiscoveryFacts.ScanKeepsMarks | StaircaseFound/ModEntry.cs:290-318 | A known cell is never rewritten or reported again. A cell becomes a ladder only from tile 173, and a shaft only from tile 174 above level 120. |
| DiscoveryFacts.NoticesGated | StaircaseFound/ModEntry.cs:299-324 | Over any list of discoveries, the announcements play sounds only when sound is on and show messages only when messages are on. |
| DiscoveryFacts.ScanGated | StaircaseFound/ModEntry.cs:299-344 | A scan, initial or incremental, plays a sound only when sound is on and shows a message only when messages are on. |
| DiscoveryFacts.ScanStateConfigFree | StaircaseFound/ModEntry.cs:283-329 | The grid and the flag a scan leaves are the same under any two configurations. |
| DiscoveryFacts.NoticesQuiet | StaircaseFound/ModEntry.cs:301-323 | With both the message and the sound switched off, announcing discoveries makes no host call. |
| DiscoveryFacts.ScanOutputGating | StaircaseFound/ModEntry.cs:299-344 | The grid and the flag a scan leaves do not depend on the switches. A scan plays a sound only when sound is on and shows a message only when messages are on. With both off, it is silent. |
| DiscoveryFacts.AggregateTwoLaddersOneShaft | StaircaseFound/ModEntry.cs:335-341 | Two ladders and a shaft read "2 ladders and 1 shaft have been found on this level!". |
| DiscoveryFacts.AggregateOneLadder | StaircaseFound/ModEntry.cs:335-341 | One ladder reads "1 ladder has been found on this level!". |
| DiscoveryFacts.AggregateOneLadderOneShaft | StaircaseFound/ModEntry.cs:335-341 | One ladder and one shaft read "1 ladder 1 shaft have been found on this level!", with no " and". |
| DiscoveryFacts.AggregateShaftsOnly | StaircaseFound/ModEntry.cs:335-341 | Shafts alone give a summary that starts with a space. |
| DiscoveryFacts.AggregateTextEnding | StaircaseFound/ModEntry.cs:335-341 | Every summary ends in " been found on this level!", preceded by " have" when more than one thing was found and by " has" when exactly one was. |
| DiscoveryFacts.AggregateTextOpensWithCount | StaircaseFound/ModEntry.cs:335 | With a ladder, the summary opens with the ladder count in decimal, and that prefix reads back as the count. |
| DiscoveryFacts.AggregateTextOpensWithSpace | StaircaseFound/ModEntry.cs:335-338 | Without a ladder, the ladder parts are empty and the summary opens with the space before the shaft count. |
| DiscoveryFacts.OutputOrder | StaircaseFound/ModEntry.cs:299-344 | A single discovery plays the sound and then shows the message. The summary shows the message and then plays the sound. |
| Tracker.TryFindLaddersOrShafts | StaircaseFound/ModEntry.cs:273-275 | The scanner changes only the grid (keeping its size) and the staircase flag, and does nothing outside a mine level. The rest is stated by `TrackerFacts.TryFindSpec`. |
| Tracker.CheckAmountOfMonstersInLevel | StaircaseFound/ModEntry.cs:255-271 | In a mine level, the stored monster count becomes the level's. Unless asked to check and the count went down, nothing else changes and nothing is announced. Otherwise only the grid and the flag may change, through a scan. Outside a mine it returns at once, changing nothing. |
| Tracker.CheckLocation | StaircaseFound/ModEntry.cs:224-253 | The reset clears readiness and leaves the counter and the pending flag alone. In a mine level it enters mine mode, starts the readiness debounce, takes the stone and monster counts, and sizes the grid to the layer. Elsewhere it only leaves mine mode, clears readiness and sets the stone count to 0. Everything else is kept, including a running readiness debounce, the monster count, the grid and the flag. Nothing is announced. |
| Tracker.OnUpdateTicked | StaircaseFound/ModEntry.cs:137-150 | A reset stays pending exactly while the counter is below 3, and such a counting tick announces nothing and keeps the grid. Ticks, resets and readiness are stated by `TrackerFacts.ResetDebounce`, `ResetIntoMine`, `ResetElsewhere`, `ReadyDebounce` and `StoneTrigger`. |
| Tracker.AfterLocationCheck | StaircaseFound/ModEntry.cs:152-174 | While the readiness debounce counts, a tick only advances the counter and announces nothing. The stored stone count changes only down to the level's lower count, in a mine. The pending flag and mine mode are untouched. |
| Tracker.OnOneSecondUpdateTicked | StaircaseFound/ModEntry.cs:177-185 | The poll changes only the grid, the flag and the monster count, and does nothing unless the player is in a ready mine level. |
| Tracker.OnButtonPressed | StaircaseFound/ModEntry.cs:187-199 | Only the staircase flag changes. It is raised exactly when the action button is pressed by the local, idle player holding "(BC)71", and it is never cleared here. |
| Tracker.OnInventoryChanged | StaircaseFound/ModEntry.cs:201-205 | Only the staircase flag changes. It is raised exactly when the player is in a mine level, is local and idle, and holds fewer staircases than the remembered count. |
| Tracker.CheckStaircasesInInventory | StaircaseFound/ModEntry.cs:211-218 | Only the staircase flag changes. It is raised exactly when the local, idle player holds fewer staircases than remembered, and it is never cleared. |
| TrackerFacts.TryFindSpec | StaircaseFound/ModEntry.cs:273-345 | In a mine level, `TryFindLaddersOrShafts` changes only the grid and the flag, as `ScanSpec` describes, and reads the captured layer with the current level's number. |
| TrackerFacts.ResetDebounce | StaircaseFound/ModEntry.cs:137-145 | With a reset pending, `3 - ticks` update ticks only count up and announce nothing, whatever the host shows. |
| TrackerFacts.WarpThenReset | StaircaseFound/ModEntry.cs:127-145 | A warp clears the flag and schedules a reset. The reset runs on the tick after `3 - ticks` counting ticks, or on the very next tick when the shared counter is already 3 or more. |
| TrackerFacts.ResetIntoMine | StaircaseFound/ModEntry.cs:224-246 | The reset tick into a mine level does the following: a fresh grid of the layer's size in which exactly what the layer shows is marked; stones and monsters taken from the level; readiness cleared and its debounce begun, with the counter already at 1; the flag as before unless the inventory check fires; nothing announced but the summary. |
| TrackerFacts.ResetElsewhere | StaircaseFound/ModEntry.cs:137-162 | The whole reset tick outside a mine is pinned down. It clears the pending reset, mine mode, readiness and the stone count. The counter is 1 if a readiness debounce was running and 0 otherwise. Everything else is kept, and nothing is announced. |
| TrackerFacts.ReadyOutsideMine | StaircaseFound/ModEntry.cs:137-163 | A readiness debounce interrupted by a warp out of the mine survives the reset with its counter at 1. Four silent ticks later, the next tick makes the level "ready" while the player is in no mine. |
| TrackerFacts.ReadyDebounce | StaircaseFound/ModEntry.cs:152-163 | After a reset, `5 - ticks` update ticks only count up, with no stone check. The next tick makes the level ready and restarts the counter. |
| TrackerFacts.LevelReadyOnlyAfterDebounce | StaircaseFound/ModEntry.cs:152-163 | A level becomes ready exactly on an update tick that finds the readiness debounce running, no reset pending and the counter at 5 or more (both directions). |
| TrackerFacts.StoneTrigger | StaircaseFound/ModEntry.cs:152-174 | Once no debounce is counting, an update tick scans exactly when the player is in a mine and its stones went down; the stored count then follows. This includes the tick on which the readiness debounce completes and makes the level ready. Otherwise nothing changes beyond that readiness step, not even the stored count. |
| TrackerFacts.MonsterTrigger | StaircaseFound/ModEntry.cs:177-185 | The per-second poll runs only in a ready mine level. It always stores the monster count, and scans exactly when the count went down. |
| TrackerFacts.ScanNeverSetsFlag | StaircaseFound/ModEntry.cs:299-304 | A scan can clear the staircase flag but never sets it. |
| TrackerFacts.InventoryCheckInert | StaircaseFound/ModEntry.cs:211-218 | With the remembered staircase count at 0, the inventory check changes nothing. |
| TrackerFacts.StaircaseCountFixed | StaircaseFound/ModEntry.cs:39 | No sequence of callbacks changes the remembered staircase count. |
| TrackerFacts.FromStart | StaircaseFound/ModEntry.cs:39 | Every session reached from the newly constructed tracker remembers 0 staircases. |
| TrackerFacts.FlagOnlyFromButton | StaircaseFound/ModEntry.cs:187-218 | From a session with the flag clear and the remembered count 0, a callback sets the flag exactly when it is the action button pressed by the local, idle player holding item "(BC)71". |
| TrackerFacts.IneligiblePlayerInert | StaircaseFound/ModEntry.cs:356-362 | A player who is not the local one, or who is busy, can neither press the staircase into use nor trigger the inventory check: both leave the session unchanged. |
| TrackerFacts.WarpClearsFlag | StaircaseFound/ModEntry.cs:127-135 | A warp always clears the staircase flag and makes no host call. |
| TrackerFacts.SweptExtends | StaircaseFound/ModEntry.cs:292-318 | A sweep keeps every known mark, and a newly marked cell shows that mark's tile. |
| TrackerFacts.AfterLocationCheckMarks | StaircaseFound/ModEntry.cs:152-174 | The rest of an update tick either leaves the grid alone or sweeps the captured layer. |
| TrackerFacts.StepExtendsMarks | StaircaseFound/ModEntry.cs:165-185 | Every callback other than a reset tick keeps the grid's shape and every known mark. A cell it newly marks shows that mark's tile in the captured layer on the current level. |
| TrackerFacts.MarksPersistUntilReset | StaircaseFound/ModEntry.cs:292-318 | Between two resets, discovery marks are never rewritten or cleared. |
| TrackerFacts.TryFindGating | StaircaseFound/ModEntry.cs:299-344 | `TryFindLaddersOrShafts` leaves the same session whatever the switches. Sounds are played only when sound is on and messages shown only when messages are on; with both off, nothing is announced. |
| TrackerFacts.CheckLocationGating | StaircaseFound/ModEntry.cs:224-253 | The reset leaves the same session whatever the switches. Sounds are played only when sound is on and messages shown only when messages are on; with both off, nothing is announced. |
| TrackerFacts.AfterLocationCheckGating | StaircaseFound/ModEntry.cs:152-174 | The readiness step and the stone check leave the same session whatever the switches. Sounds are played only when sound is on and messages shown only when messages are on; with both off, nothing is announced. |
| TrackerFacts.StepOutputGating | StaircaseFound/ModEntry.cs:127-205 | Every callback leaves the same session whatever the switches. Sounds are played only when sound is on and messages shown only when messages are on; with both off, nothing is announced. |
| TrackerFacts.RunOutputGating | StaircaseFound/ModEntry.cs:127-205 | Over any sequence of callbacks, the switches change no state. Sounds are played only when sound is on and messages shown only when messages are on; with both off, nothing is announced. |

## Left out

- Mod setup is not modelled: `Entry`, `SetEvents`, `OnGameLaunched`, `LoadGenericModConfigSettings` and `IsConfigFileValid` (lines 55-118, 121-124, 363-374). They read and write the configuration file and register menu options; the configuration is a `Config` parameter instead, whose defaults are the constructor's (`ModConfig.cs` lines 9-14).
- A mine level without a "Buildings" layer is not modelled: every `Mine` carries its layer. In the source, `RequireLayer("Buildings")` (line 236) sits outside the `try`/`catch`. If the layer were missing, `CheckLocation` would throw after lines 228-234 had run, before the grid is reallocated and before `prepareLevelReady` is set.
- Logging and the `try`/`catch` around the sweep (lines 276, 347-350) are left out. The grid and the captured layer are allocated together with one size, so the sweep never indexes out of range. Tile reads are total in the model (`Grids.Lookup` gives "no tile" outside the array) and the exception path does not arise.
- Host objects are abstracted into the facts the tracker reads: `MineShaft`, `Layer`/`TileArray`, `Farmer`, the character list and `Items.CountId`. The list `monstersInLevel` is kept only as its count, which is all the tracker uses.
- The warp event carries no payload. The new location appears as the location of the `Host` view of later ticks, which is what `currentLocation` holds in the source.
- `Game1.playSound` and `Game1.addHUDMessage` are recorded as `Output` values; audio and rendering are outside the model.
- Integer widths: `ticks` never exceeds 5 and the counts are far below 2^31, so C# `int` overflow cannot arise and the model uses unbounded integers.

=== FILE: discovery.dfy ===
/**
 The discovery scanner and its notification gate: one sweep over the
 "Buildings" layer of a mine level that marks newly visible ladders and shafts
 in the session's discovery grid and says what to tell the player.

 Host calls become data: `Game1.playSound` is an `Output.Sound` and
 `Game1.addHUDMessage` an `Output.Message`, in the order the source makes them.
 */
module Discovery {

  import opened Options
  import opened Grids
  import Text

  /** Tile index of a ladder on the "Buildings" layer. */
  const LadderTile := 173
  /** Tile index of a shaft; only meaningful in the Skull Cavern. */
  const ShaftTile := 174
  /** Shafts are recognised only when `mineLevel` exceeds this (Skull Cavern levels). */
  const ShaftMinLevel := 120
  /** The sound cue played for every notification. */
  const NotifySound := "newArtifact"
  const LadderText := "A ladder has been discovered!"
  const ShaftText := "A shaft has been discovered!"
  const AggregateTail := " been found on this level!"

  /** One tile slot of the layer: `None` is a null tile, `Some(i)` a tile with index `i`. */
  type Tile = Option<int>

  /** A cell of the discovery grid: 0, 1 and 2 of the source's `int[,]`. */
  datatype Mark = Unknown | Ladder | Shaft

  /** The three switches of the player's configuration file; all default to on. */
  datatype Config = Config(checkOnLoad: bool, showMessage: bool, playSound: bool)

  const DefaultConfig := Config(true, true, true)

  /** A call the tracker makes into the host: a sound cue or a corner HUD message. */
  datatype Output = Sound(name: string) | Message(text: string)

  // ---------------------------------------------------------------------------
  // Reference definitions: what a single cell is, independent of the loop
  // ---------------------------------------------------------------------------

  /** The descent point a tile shows on a level, `Unknown` when none. */
  function Classify(t: Tile, mineLevel: int): (m: Mark)
    ensures m == Ladder <==> t == Some(LadderTile)
    ensures m == Shaft <==> t == Some(ShaftTile) && mineLevel > ShaftMinLevel
  {
    if t == Some(LadderTile) then Ladder
    else if t == Some(ShaftTile) && mineLevel > ShaftMinLevel then Shaft
    else Unknown
  }

  /** A cell after a sweep: a known cell keeps its mark, an unknown one takes what its tile shows. */
  function NewMark(m: Mark, t: Tile, mineLevel: int): Mark
  {
    if m == Unknown then Classify(t, mineLevel) else m
  }

  /** A newly discovered cell. */
  datatype Find = Find(pos: Pos, mark: Mark)

  /** The cells of `ps` that a sweep marks for the first time, in the order of `ps`. */
  function Finds(marks: Grid<Mark>, tiles: Grid<Tile>, mineLevel: int, ps: seq<Pos>): (fs: seq<Find>)
    requires Valid(marks) && forall p :: p in ps ==> InBounds(marks, p)
    ensures forall f :: f in fs <==>
      && f.pos in ps
      && Get(marks, f.pos) == Unknown
      && f.mark != Unknown
      && f.mark == Classify(Lookup(tiles, f.pos, None), mineLevel)
  {
    if ps == [] then []
    else
      var p := ps[0];
      var m := Classify(Lookup(tiles, p, None), mineLevel);
      var rest := Finds(marks, tiles, mineLevel, ps[1..]);
      assert forall q :: q in ps <==> q == p || q in ps[1..];
      if Get(marks, p) == Unknown && m != Unknown then [Find(p, m)] + rest else rest
  }

  function CountOf(fs: seq<Find>, m: Mark): nat
  {
    if fs == [] then 0 else (if fs[0].mark == m then 1 else 0) + CountOf(fs[1..], m)
  }

  predicate HasLadder(fs: seq<Find>)
  {
    exists i :: 0 <= i < |fs| && fs[i].mark == Ladder
  }

  /** `fs` without its first ladder (unchanged when it has none). */
  function DropFirstLadder(fs: seq<Find>): seq<Find>
  {
    if fs == [] then []
    else if fs[0].mark == Ladder then fs[1..]
    else [fs[0]] + DropFirstLadder(fs[1..])
  }

  // ---------------------------------------------------------------------------
  // Notification gate
  // ---------------------------------------------------------------------------

  /** Both announcement switches are off. */
  predicate Quiet(cfg: Config)
  {
    !cfg.showMessage && !cfg.playSound
  }

  /** Host calls that respect the switches: no sound while sound is off, no message while messages are off. */
  predicate Gated(out: seq<Output>, cfg: Config)
  {
    && (!cfg.playSound ==> forall o :: o in out ==> !o.Sound?)
    && (!cfg.showMessage ==> forall o :: o in out ==> !o.Message?)
  }

  /** The text announcing one discovery. */
  function NoticeText(m: Mark): string
  {
    if m == Ladder then LadderText else ShaftText
  }

  /** The announcement of one discovery: the sound, then the message, each if switched on. */
  function Notice(m: Mark, cfg: Config): (out: seq<Output>)
    ensures Gated(out, cfg)
    ensures cfg.playSound ==> Sound(NotifySound) in out
    ensures cfg.showMessage ==> Message(NoticeText(m)) in out
    ensures forall o :: o in out ==> o == Sound(NotifySound) || o == Message(NoticeText(m))
    ensures |out| == (if cfg.playSound then 1 else 0) + (if cfg.showMessage then 1 else 0)
    ensures |out| == 2 ==> out[0].Sound? && out[1].Message?
  {
    (if cfg.playSound then [Sound(NotifySound)] else [])
    + (if cfg.showMessage then [Message(NoticeText(m))] else [])
  }

  /** The announcements of a list of discoveries, one after another. */
  function Notices(fs: seq<Find>, cfg: Config): seq<Output>
  {
    if fs == [] then [] else Notice(fs[0].mark, cfg) + Notices(fs[1..], cfg)
  }

  /**
   The summary of an initial sweep. The pieces are those the source concatenates,
   including two oddities: " and" is inserted only for two or more ladders, and
   with no ladder the text starts with a space.
   */
  function AggregateText(ladders: nat, shafts: nat): string
  {
    (if ladders > 0 then Text.NatToString(ladders) + " ladder" else "")
    + (if ladders > 1 then "s" else "")
    + (if ladders > 1 && shafts > 0 then " and" else "")
    + (if shafts > 0 then " " + Text.NatToString(shafts) + " shaft" else "")
    + (if shafts > 1 then "s" else "")
    + (if ladders + shafts > 1 then " have" else " has")
    + AggregateTail
  }

  /** The summary announcement: the message first, then the sound, each if switched on. */
  function Aggregate(ladders: nat, shafts: nat, cfg: Config): (out: seq<Output>)
    ensures Gated(out, cfg)
    ensures cfg.showMessage ==> Message(AggregateText(ladders, shafts)) in out
    ensures cfg.playSound ==> Sound(NotifySound) in out
    ensures forall o :: o in out ==> o == Message(AggregateText(ladders, shafts)) || o == Sound(NotifySound)
    ensures |out| == (if cfg.showMessage then 1 else 0) + (if cfg.playSound then 1 else 0)
    ensures |out| == 2 ==> out[0].Message? && out[1].Sound?
  {
    (if cfg.showMessage then [Message(AggregateText(ladders, shafts))] else [])
    + (if cfg.playSound then [Sound(NotifySound)] else [])
  }

  // ---------------------------------------------------------------------------
  // The sweep, cell by cell, as the source's loop body does it
  // ---------------------------------------------------------------------------

  /** Loop state: the grid, the staircase flag, the two initial counters and the calls made so far. */
  datatype ScanState = ScanState(marks: Grid<Mark>, flag: bool, ladders: nat, shafts: nat, out: seq<Output>)

  /** The parameters that stay fixed during one sweep. */
  datatype Sweep = Sweep(tiles: Grid<Tile>, mineLevel: int, initial: bool, cfg: Config)

  /**
   The loop body for cell `p`. A ladder tile that is already marked is skipped;
   otherwise it is marked and then announced, or swallowed by the staircase flag
   (clearing it), or counted on an initial sweep. A shaft tile, recognised only
   beyond level 120, is handled the same way except that it never touches the
   flag. The source tests the shaft case after the ladder case for the same
   tile, but one tile index cannot be both 173 and 174, so the two cases
   exclude each other.
   */
  function Visit(st: ScanState, sw: Sweep, p: Pos): (r: ScanState)
    requires Valid(st.marks) && InBounds(st.marks, p)
    ensures Valid(r.marks) && SameShape(r.marks, st.marks)
    ensures Get(r.marks, p) == NewMark(Get(st.marks, p), Lookup(sw.tiles, p, None), sw.mineLevel)
    ensures forall q :: InBounds(st.marks, q) && q != p ==> Get(r.marks, q) == Get(st.marks, q)
  {
    var t := Lookup(sw.tiles, p, None);
    if t.None? then st
    else if t.value == LadderTile then
      if Get(st.marks, p) != Unknown then st
      else
        var st1 := st.(marks := Update(st.marks, p, Ladder));
        if !sw.initial && !st.flag then st1.(out := st.out + Notice(Ladder, sw.cfg))
        else if st.flag && !sw.initial then st1.(flag := false)
        else st1.(ladders := st.ladders + 1)
    else if sw.mineLevel > ShaftMinLevel && t.value == ShaftTile then
      if Get(st.marks, p) != Unknown then st
      else
        var st1 := st.(marks := Update(st.marks, p, Shaft));
        if !sw.initial then st1.(out := st.out + Notice(Shaft, sw.cfg))
        else st1.(shafts := st.shafts + 1)
    else st
  }

  /** The loop: `Visit` folded over the positions `ps`, first to last. */
  function SweepAll(st: ScanState, sw: Sweep, ps: seq<Pos>): (r: ScanState)
    requires Valid(st.marks) && forall p :: p in ps ==> InBounds(st.marks, p)
    ensures Valid(r.marks) && SameShape(r.marks, st.marks)
    ensures forall q :: InBounds(st.marks, q) ==>
      Get(r.marks, q) == if q in ps then NewMark(Get(st.marks, q), Lookup(sw.tiles, q, None), sw.mineLevel)
                         else Get(st.marks, q)
    decreases |ps|
  {
    if ps == [] then st
    else
      assert forall q :: q in ps <==> q == ps[0] || q in ps[1..];
      SweepAll(Visit(st, sw, ps[0]), sw, ps[1..])
  }

  /** What `TryFindLaddersOrShafts` leaves behind: the grid, the staircase flag and the host calls. */
  datatype ScanResult = ScanResult(marks: Grid<Mark>, flag: bool, out: seq<Output>)

  /**
   One call of the scanner on the discovery grid `marks`, reading `tiles`:
   the full x-major sweep, then, after an initial sweep that found something and
   with "check on load" switched on, the one summary announcement.
   */
  function Scan(marks: Grid<Mark>, tiles: Grid<Tile>, mineLevel: int, initial: bool, flag: bool, cfg: Config): (r: ScanResult)
    requires Valid(marks)
    ensures Valid(r.marks) && SameShape(r.marks, marks)
  {
    var st := SweepAll(ScanState(marks, flag, 0, 0, []), Sweep(tiles, mineLevel, initial, cfg),
                       XMajor(marks.width, marks.height));
    var out :=
      if cfg.checkOnLoad && initial && (st.ladders > 0 || st.shafts > 0)
      then st.out + Aggregate(st.ladders, st.shafts, cfg)
      else st.out;
    ScanResult(st.marks, st.flag, out)
  }
}

=== FILE: discovery_facts.dfy ===
/**
 What one call of the scanner does, stated against the reference definitions
 of `Discovery` rather than against the loop: which cells it marks, which
 discoveries it reports, how the staircase flag swallows one ladder, and what
 the summary of an initial sweep says.
 */
module DiscoveryFacts {

  import opened Options
  import opened Grids
  import opened Discovery
  import Text

  // ---------------------------------------------------------------------------
  // The discovery list
  // ---------------------------------------------------------------------------

  /** Discoveries listed strictly in x-major order of their cells. */
  predicate InVisitOrder(fs: seq<Find>)
  {
    forall i, j :: 0 <= i < j < |fs| ==> Before(fs[i].pos, fs[j].pos)
  }

  /** Only the cells of `ps` matter to `Finds`: grids that agree there give the same list. */
  lemma {:induction false} FindsFrame(a: Grid<Mark>, b: Grid<Mark>, tiles: Grid<Tile>, mineLevel: int, ps: seq<Pos>)
    requires Valid(a) && Valid(b) && SameShape(a, b)
    requires forall p :: p in ps ==> InBounds(a, p) && Get(a, p) == Get(b, p)
    ensures Finds(a, tiles, mineLevel, ps) == Finds(b, tiles, mineLevel, ps)
  {
    if ps != [] {
      assert forall q :: q in ps[1..] ==> q in ps;
      FindsFrame(a, b, tiles, mineLevel, ps[1..]);
    }
  }

  /** The discoveries come out in the order the positions are visited. */
  lemma {:induction false} FindsAscending(marks: Grid<Mark>, tiles: Grid<Tile>, mineLevel: int, ps: seq<Pos>)
    requires Valid(marks) && forall p :: p in ps ==> InBounds(marks, p)
    requires Ascending(ps)
    ensures InVisitOrder(Finds(marks, tiles, mineLevel, ps))
  {
    if ps != [] {
      assert forall q :: q in ps[1..] ==> q in ps;
      FindsAscending(marks, tiles, mineLevel, ps[1..]);
      var rest := Finds(marks, tiles, mineLevel, ps[1..]);
      forall k | 0 <= k < |rest|
        ensures Before(ps[0], rest[k].pos)
      {
        assert rest[k] in rest;
        var j :| 0 <= j < |ps[1..]| && ps[1..][j] == rest[k].pos;
        assert ps[j + 1] == rest[k].pos;
      }
      var m := Classify(Lookup(tiles, ps[0], None), mineLevel);
      if Get(marks, ps[0]) == Unknown && m != Unknown {
        var fs := [Find(ps[0], m)] + rest;
        assert Finds(marks, tiles, mineLevel, ps) == fs;
        forall i, j | 0 <= i < j < |fs|
          ensures Before(fs[i].pos, fs[j].pos)
        {
          assert fs[j] == rest[j - 1];
          if i > 0 {
            assert fs[i] == rest[i - 1];
            assert Before(rest[i - 1].pos, rest[j - 1].pos);
          } else {
            assert Before(ps[0], rest[j - 1].pos);
          }
        }
      }
    }
  }

  /** Every discovery is a ladder or a shaft, so the two counts add up to the list's length. */
  lemma {:induction false} CountsCoverFinds(fs: seq<Find>)
    requires forall f :: f in fs ==> f.mark != Unknown
    ensures CountOf(fs, Ladder) + CountOf(fs, Shaft) == |fs|
  {
    if fs != [] {
      assert fs[0] in fs;
      assert forall f :: f in fs[1..] ==> f in fs;
      CountsCoverFinds(fs[1..]);
    }
  }

  /**
   The staircase flag removes exactly the first ladder of the list: the
   discoveries before it and after it are kept, in order.
   */
  lemma {:induction false} DropFirstLadderRemovesFirst(fs: seq<Find>, i: nat)
    requires i < |fs| && fs[i].mark == Ladder
    requires forall j :: 0 <= j < i ==> fs[j].mark != Ladder
    ensures DropFirstLadder(fs) == fs[..i] + fs[i + 1..]
    ensures CountOf(DropFirstLadder(fs), Ladder) + 1 == CountOf(fs, Ladder)
    ensures CountOf(DropFirstLadder(fs), Shaft) == CountOf(fs, Shaft)
  {
    if i == 0 {
      assert fs[..0] + fs[1..] == fs[1..];
    } else {
      DropFirstLadderRemovesFirst(fs[1..], i - 1);
      assert fs[..i] + fs[i + 1..] == [fs[0]] + (fs[1..][..i - 1] + fs[1..][i..]);
      assert ([fs[0]] + DropFirstLadder(fs[1..]))[1..] == DropFirstLadder(fs[1..]);
    }
  }

  /** Without a ladder there is nothing to drop. */
  lemma {:induction false} DropFirstLadderNone(fs: seq<Find>)
    requires !HasLadder(fs)
    ensures DropFirstLadder(fs) == fs
  {
    if fs != [] {
      assert fs[0].mark != Ladder;
      assert !HasLadder(fs[1..]);
      DropFirstLadderNone(fs[1..]);
    }
  }

  // ---------------------------------------------------------------------------
  // The loop against the discovery list
  // ---------------------------------------------------------------------------

  lemma HasLadderCons(f: Find, fs: seq<Find>)
    ensures HasLadder([f] + fs) <==> f.mark == Ladder || HasLadder(fs)
  {
    if HasLadder(fs) {
      var i :| 0 <= i < |fs| && fs[i].mark == Ladder;
      assert ([f] + fs)[i + 1].mark == Ladder;
    }
    if f.mark == Ladder {
      assert ([f] + fs)[0].mark == Ladder;
    }
    if HasLadder([f] + fs) {
      var i :| 0 <= i < |[f] + fs| && ([f] + fs)[i].mark == Ladder;
      if i > 0 {
        assert ([f] + fs)[i] == fs[i - 1];
        assert fs[i - 1].mark == Ladder;
      } else {
        assert ([f] + fs)[0] == f;
      }
    }
  }

  /** Regrouping a concatenation; stated once so the sweep proof need not search for it. */
  lemma ConcatAssoc<T>(a: seq<T>, b: seq<T>, c: seq<T>)
    ensures (a + b) + c == a + (b + c)
  {
  }

  /** How the counts, the flag test and the announcements of a list start with its first discovery. */
  lemma ReportsCons(f: Find, rest: seq<Find>, flag: bool, cfg: Config)
    ensures CountOf([f] + rest, Ladder) == (if f.mark == Ladder then 1 else 0) + CountOf(rest, Ladder)
    ensures CountOf([f] + rest, Shaft) == (if f.mark == Shaft then 1 else 0) + CountOf(rest, Shaft)
    ensures HasLadder([f] + rest) <==> f.mark == Ladder || HasLadder(rest)
    ensures Notices(if flag then DropFirstLadder([f] + rest) else [f] + rest, cfg)
         == (if f.mark == Ladder && flag then [] else Notice(f.mark, cfg))
            + Notices(if flag && f.mark != Ladder then DropFirstLadder(rest) else rest, cfg)
  {
    assert ([f] + rest)[1..] == rest;
    HasLadderCons(f, rest);
    if flag && f.mark != Ladder {
      assert DropFirstLadder([f] + rest) == [f] + DropFirstLadder(rest);
      assert ([f] + DropFirstLadder(rest))[1..] == DropFirstLadder(rest);
    }
  }

  /**
   One loop step against the discovery it makes, if any: a cell that is not new
   changes nothing; a new cell is counted on an initial sweep, swallowed by a
   set flag if it is a ladder, and announced otherwise.
   */
  lemma VisitReports(st: ScanState, sw: Sweep, p: Pos)
    requires Valid(st.marks) && InBounds(st.marks, p)
    ensures var r := Visit(st, sw, p);
      var m := Classify(Lookup(sw.tiles, p, None), sw.mineLevel);
      && (Get(st.marks, p) != Unknown || m == Unknown ==> r == st)
      && (Get(st.marks, p) == Unknown && m != Unknown ==>
            && r.ladders == st.ladders + (if sw.initial && m == Ladder then 1 else 0)
            && r.shafts == st.shafts + (if sw.initial && m == Shaft then 1 else 0)
            && r.flag == (if !sw.initial && m == Ladder then false else st.flag)
            && r.out == st.out + (if sw.initial || (m == Ladder && st.flag) then [] else Notice(m, sw.cfg)))
  {
  }

  /** Facts shared by both sweep lemmas: the first loop step and the rest of the list. */
  lemma SweepStep(st: ScanState, sw: Sweep, ps: seq<Pos>)
    requires Valid(st.marks) && forall p :: p in ps ==> InBounds(st.marks, p)
    requires Ascending(ps) && ps != []
    ensures var st1 := Visit(st, sw, ps[0]);
      && Ascending(ps[1..]) && (forall q :: q in ps[1..] ==> InBounds(st1.marks, q))
      && SweepAll(st, sw, ps) == SweepAll(st1, sw, ps[1..])
      && Finds(st1.marks, sw.tiles, sw.mineLevel, ps[1..]) == Finds(st.marks, sw.tiles, sw.mineLevel, ps[1..])
  {
    var p := ps[0];
    var st1 := Visit(st, sw, p);
    assert forall q :: q in ps[1..] ==> q in ps;
    assert p !in ps[1..];
    FindsFrame(st1.marks, st.marks, sw.tiles, sw.mineLevel, ps[1..]);
  }

  /**
   An initial sweep over distinct positions `ps` counts the new ladders and
   shafts of the discovery list, announces nothing and leaves the flag alone.
   */
  lemma {:induction false} SweepInitial(st: ScanState, sw: Sweep, ps: seq<Pos>)
    requires Valid(st.marks) && forall p :: p in ps ==> InBounds(st.marks, p)
    requires Ascending(ps) && sw.initial
    ensures var r := SweepAll(st, sw, ps);
      var fs := Finds(st.marks, sw.tiles, sw.mineLevel, ps);
      && r.ladders == st.ladders + CountOf(fs, Ladder)
      && r.shafts == st.shafts + CountOf(fs, Shaft)
      && r.flag == st.flag
      && r.out == st.out
    decreases |ps|
  {
    if ps != [] {
      var p := ps[0];
      SweepStep(st, sw, ps);
      SweepInitial(Visit(st, sw, p), sw, ps[1..]);
      var rest := Finds(st.marks, sw.tiles, sw.mineLevel, ps[1..]);
      var m := Classify(Lookup(sw.tiles, p, None), sw.mineLevel);
      VisitReports(st, sw, p);
      if Get(st.marks, p) == Unknown && m != Unknown {
        assert Finds(st.marks, sw.tiles, sw.mineLevel, ps) == [Find(p, m)] + rest;
        ReportsCons(Find(p, m), rest, st.flag, sw.cfg);
      } else {
        assert Finds(st.marks, sw.tiles, sw.mineLevel, ps) == rest;
      }
    }
  }

  /**
   An incremental sweep over distinct positions `ps` announces every discovery
   of the list in order, except that a set flag swallows the first new ladder
   and is cleared by it; it counts nothing.
   */
  lemma {:induction false} SweepIncremental(st: ScanState, sw: Sweep, ps: seq<Pos>)
    requires Valid(st.marks) && forall p :: p in ps ==> InBounds(st.marks, p)
    requires Ascending(ps) && !sw.initial
    ensures var r := SweepAll(st, sw, ps);
      var fs := Finds(st.marks, sw.tiles, sw.mineLevel, ps);
      && r.ladders == st.ladders
      && r.shafts == st.shafts
      && r.flag == (st.flag && !HasLadder(fs))
      && r.out == st.out + Notices(if st.flag then DropFirstLadder(fs) else fs, sw.cfg)
    decreases |ps|
  {
    if ps != [] {
      var p := ps[0];
      SweepStep(st, sw, ps);
      var st1 := Visit(st, sw, p);
      SweepIncremental(st1, sw, ps[1..]);
      var rest := Finds(st.marks, sw.tiles, sw.mineLevel, ps[1..]);
      var m := Classify(Lookup(sw.tiles, p, None), sw.mineLevel);
      VisitReports(st, sw, p);
      if Get(st.marks, p) == Unknown && m != Unknown {
        assert Finds(st.marks, sw.tiles, sw.mineLevel, ps) == [Find(p, m)] + rest;
        ReportsCons(Find(p, m), rest, st.flag, sw.cfg);
        var fs := [Find(p, m)] + rest;
        var r := SweepAll(st1, sw, ps[1..]);
        var told := Notices(if st.flag then DropFirstLadder(fs) else fs, sw.cfg);
        if m == Ladder && st.flag {
          assert told == Notices(rest, sw.cfg);
          assert r.out == st.out + told;
        } else {
          var later := Notices(if st.flag then DropFirstLadder(rest) else rest, sw.cfg);
          assert told == Notice(m, sw.cfg) + later;
          assert r.out == (st.out + Notice(m, sw.cfg)) + later;
          ConcatAssoc(st.out, Notice(m, sw.cfg), later);
        }
      } else {
        assert Finds(st.marks, sw.tiles, sw.mineLevel, ps) == rest;
      }
    }
  }

  // ---------------------------------------------------------------------------
  // One call of the scanner
  // ---------------------------------------------------------------------------

  /** The discoveries of a scan: the new cells of the whole grid in x-major order. */
  function ScanFinds(marks: Grid<Mark>, tiles: Grid<Tile>, mineLevel: int): seq<Find>
    requires Valid(marks)
  {
    Finds(marks, tiles, mineLevel, XMajor(marks.width, marks.height))
  }

  /**
   What a call of the scanner does. Every cell already known keeps its mark;
   every unknown cell takes what its tile shows (a ladder only for tile 173, a
   shaft only for tile 174 beyond level 120, nothing otherwise). The
   discoveries are listed once each, in x-major order. An initial sweep leaves
   the flag alone and announces nothing but the one summary, and that only when
   "check on load" is on and something was found; an incremental sweep
   announces each discovery in order, a set flag swallowing the first ladder and
   being cleared by it.
   */
  lemma ScanSpec(marks: Grid<Mark>, tiles: Grid<Tile>, mineLevel: int, initial: bool, flag: bool, cfg: Config)
    requires Valid(marks)
    ensures var r := Scan(marks, tiles, mineLevel, initial, flag, cfg);
      var fs := ScanFinds(marks, tiles, mineLevel);
      && (forall q :: InBounds(marks, q) ==>
            Get(r.marks, q) == NewMark(Get(marks, q), Lookup(tiles, q, None), mineLevel))
      && (forall f :: f in fs <==>
            InBounds(marks, f.pos) && Get(marks, f.pos) == Unknown && f.mark != Unknown
            && f.mark == Classify(Lookup(tiles, f.pos, None), mineLevel))
      && InVisitOrder(fs)
      && (initial ==>
            && r.flag == flag
            && r.out == if cfg.checkOnLoad && |fs| > 0
                        then Aggregate(CountOf(fs, Ladder), CountOf(fs, Shaft), cfg) else [])
      && (!initial ==>
            && r.flag == (flag && !HasLadder(fs))
            && r.out == Notices(if flag then DropFirstLadder(fs) else fs, cfg))
  {
    var ps := XMajor(marks.width, marks.height);
    var sw := Sweep(tiles, mineLevel, initial, cfg);
    var fs := ScanFinds(marks, tiles, mineLevel);
    if initial {
      SweepInitial(ScanState(marks, flag, 0, 0, []), sw, ps);
    } else {
      SweepIncremental(ScanState(marks, flag, 0, 0, []), sw, ps);
    }
    FindsAscending(marks, tiles, mineLevel, ps);
    CountsCoverFinds(fs);
  }

  /** A scan writes its discoveries into the grid: each listed cell now holds its mark. */
  lemma ScanMarksFinds(marks: Grid<Mark>, tiles: Grid<Tile>, mineLevel: int, initial: bool, flag: bool, cfg: Config)
    requires Valid(marks)
    ensures var r := Scan(marks, tiles, mineLevel, initial, flag, cfg);
      forall f :: f in ScanFinds(marks, tiles, mineLevel) ==> InBounds(r.marks, f.pos) && Get(r.marks, f.pos) == f.mark
  {
    ScanSpec(marks, tiles, mineLevel, initial, flag, cfg);
  }

  /**
   Once a cell is a ladder or a shaft, a scan neither rewrites it nor reports
   it again; a cell becomes a ladder only from tile 173 and a shaft only from
   tile 174 beyond level 120.
   */
  lemma ScanKeepsMarks(marks: Grid<Mark>, tiles: Grid<Tile>, mineLevel: int, initial: bool, flag: bool, cfg: Config, q: Pos)
    requires Valid(marks) && InBounds(marks, q)
    ensures var r := Scan(marks, tiles, mineLevel, initial, flag, cfg);
      && (Get(marks, q) != Unknown ==>
            Get(r.marks, q) == Get(marks, q) && forall f :: f in ScanFinds(marks, tiles, mineLevel) ==> f.pos != q)
      && (Get(marks, q) == Unknown && Get(r.marks, q) == Ladder ==> Lookup(tiles, q, None) == Some(LadderTile))
      && (Get(marks, q) == Unknown && Get(r.marks, q) == Shaft ==>
            Lookup(tiles, q, None) == Some(ShaftTile) && mineLevel > ShaftMinLevel)
  {
    ScanSpec(marks, tiles, mineLevel, initial, flag, cfg);
  }

  // ---------------------------------------------------------------------------
  // The configuration switches only gate output
  // ---------------------------------------------------------------------------

  lemma GatedConcat(a: seq<Output>, b: seq<Output>, cfg: Config)
    requires Gated(a, cfg) && Gated(b, cfg)
    ensures Gated(a + b, cfg)
  {
  }

  /** The first call of a list that respects the switches respects them. */
  lemma GatedHead(out: seq<Output>, cfg: Config)
    requires out != [] && Gated(out, cfg)
    ensures !cfg.playSound ==> !out[0].Sound?
    ensures !cfg.showMessage ==> !out[0].Message?
  {
    assert out[0] in out;
  }

  /** With both switches off, calls that respect them are no calls at all. */
  lemma GatedQuiet(out: seq<Output>, cfg: Config)
    requires Gated(out, cfg) && Quiet(cfg)
    ensures out == []
  {
    if out != [] {
      GatedHead(out, cfg);
      assert false;
    }
  }

  /** Each announcement plays the sound only when sound is on and shows the message only when messages are on. */
  lemma {:induction false} NoticesGated(fs: seq<Find>, cfg: Config)
    ensures Gated(Notices(fs, cfg), cfg)
  {
    if fs != [] {
      NoticesGated(fs[1..], cfg);
      GatedConcat(Notice(fs[0].mark, cfg), Notices(fs[1..], cfg), cfg);
    }
  }

  lemma NoticesQuiet(fs: seq<Find>, cfg: Config)
    requires Quiet(cfg)
    ensures Notices(fs, cfg) == []
  {
    NoticesGated(fs, cfg);
    GatedQuiet(Notices(fs, cfg), cfg);
  }

  /** A scan plays a sound only when sound is switched on and shows a message only when messages are switched on. */
  lemma ScanGated(marks: Grid<Mark>, tiles: Grid<Tile>, mineLevel: int, initial: bool, flag: bool, cfg: Config)
    requires Valid(marks)
    ensures Gated(Scan(marks, tiles, mineLevel, initial, flag, cfg).out, cfg)
  {
    ScanSpec(marks, tiles, mineLevel, initial, flag, cfg);
    var fs := ScanFinds(marks, tiles, mineLevel);
    if !initial {
      NoticesGated(if flag then DropFirstLadder(fs) else fs, cfg);
    }
  }

  /** The grid and the flag a scan leaves are the same under any two configurations. */
  lemma ScanStateConfigFree(marks: Grid<Mark>, tiles: Grid<Tile>, mineLevel: int, initial: bool, flag: bool, c1: Config, c2: Config)
    requires Valid(marks)
    ensures Scan(marks, tiles, mineLevel, initial, flag, c1).marks == Scan(marks, tiles, mineLevel, initial, flag, c2).marks
    ensures Scan(marks, tiles, mineLevel, initial, flag, c1).flag == Scan(marks, tiles, mineLevel, initial, flag, c2).flag
  {
    ScanSpec(marks, tiles, mineLevel, initial, flag, c1);
    ScanSpec(marks, tiles, mineLevel, initial, flag, c2);
    CellwiseEqual(Scan(marks, tiles, mineLevel, initial, flag, c1).marks, Scan(marks, tiles, mineLevel, initial, flag, c2).marks);
  }

  /**
   The grid and the flag a scan leaves do not depend on the configuration. A
   scan plays a sound only when sound is switched on and shows a message only
   when messages are switched on; with both off it makes no host call at all.
   */
  lemma ScanOutputGating(marks: Grid<Mark>, tiles: Grid<Tile>, mineLevel: int, initial: bool, flag: bool, c1: Config, c2: Config)
    requires Valid(marks)
    ensures Scan(marks, tiles, mineLevel, initial, flag, c1).marks == Scan(marks, tiles, mineLevel, initial, flag, c2).marks
    ensures Scan(marks, tiles, mineLevel, initial, flag, c1).flag == Scan(marks, tiles, mineLevel, initial, flag, c2).flag
    ensures Gated(Scan(marks, tiles, mineLevel, initial, flag, c1).out, c1)
    ensures Quiet(c1) ==> Scan(marks, tiles, mineLevel, initial, flag, c1).out == []
  {
    ScanStateConfigFree(marks, tiles, mineLevel, initial, flag, c1, c2);
    ScanGated(marks, tiles, mineLevel, initial, flag, c1);
    if Quiet(c1) {
      GatedQuiet(Scan(marks, tiles, mineLevel, initial, flag, c1).out, c1);
    }
  }

  // ---------------------------------------------------------------------------
  // The summary text
  // ---------------------------------------------------------------------------

  /** The summary for two ladders and a shaft. */
  lemma AggregateTwoLaddersOneShaft()
    ensures AggregateText(2, 1) == "2 ladders and 1 shaft have been found on this level!"
  {
    assert Text.NatToString(2) == "2" && Text.NatToString(1) == "1";
    assert "2" + " ladder" + "s" + " and" == "2 ladders and";
    assert " " + "1" + " shaft" == " 1 shaft";
    assert "2 ladders and" + " 1 shaft" == "2 ladders and 1 shaft";
    assert "2 ladders and 1 shaft" + "" + " have" == "2 ladders and 1 shaft have";
    assert "2 ladders and 1 shaft have" + AggregateTail == "2 ladders and 1 shaft have been found on this level!";
  }

  /** One ladder alone takes the singular noun and verb. */
  lemma AggregateOneLadder()
    ensures AggregateText(1, 0) == "1 ladder has been found on this level!"
  {
    assert Text.NatToString(1) == "1";
    assert "1" + " ladder" + "" + "" + "" + "" == "1 ladder";
    assert "1 ladder" + " has" == "1 ladder has";
    assert "1 ladder has" + AggregateTail == "1 ladder has been found on this level!";
  }

  /** With exactly one ladder the " and" is missing between the two counts. */
  lemma AggregateOneLadderOneShaft()
    ensures AggregateText(1, 1) == "1 ladder 1 shaft have been found on this level!"
  {
    assert Text.NatToString(1) == "1";
    assert " " + "1" + " shaft" == " 1 shaft";
    assert "1" + " ladder" + "" + "" + " 1 shaft" + "" == "1 ladder 1 shaft";
    assert "1 ladder 1 shaft" + " have" == "1 ladder 1 shaft have";
    assert "1 ladder 1 shaft have" + AggregateTail == "1 ladder 1 shaft have been found on this level!";
  }

  /** With no ladder the summary starts with a space. */
  lemma AggregateShaftsOnly()
    ensures AggregateText(0, 2) == " 2 shafts have been found on this level!"
  {
    assert Text.NatToString(2) == "2";
    assert " " + "2" + " shaft" == " 2 shaft";
    assert "" + "" + "" + " 2 shaft" + "s" == " 2 shafts";
    assert " 2 shafts" + " have" == " 2 shafts have";
    assert " 2 shafts have" + AggregateTail == " 2 shafts have been found on this level!";
  }

  /**
   Every summary ends in " been found on this level!", preceded by a verb that
   agrees with the total: " have" for more than one discovery, " has" for one.
   */
  lemma AggregateTextEnding(ladders: nat, shafts: nat)
    requires ladders + shafts > 0
    ensures var s := AggregateText(ladders, shafts);
      && EndsWith(s, AggregateTail)
      && (ladders + shafts > 1 ==> EndsWith(s, " have" + AggregateTail))
      && (ladders + shafts == 1 ==> EndsWith(s, " has" + AggregateTail))
  {
    var s := AggregateText(ladders, shafts);
    var head := (if ladders > 0 then Text.NatToString(ladders) + " ladder" else "")
      + (if ladders > 1 then "s" else "")
      + (if ladders > 1 && shafts > 0 then " and" else "")
      + (if shafts > 0 then " " + Text.NatToString(shafts) + " shaft" else "")
      + (if shafts > 1 then "s" else "");
    var verb := if ladders + shafts > 1 then " have" else " has";
    assert s == head + verb + AggregateTail;
    assert s == head + (verb + AggregateTail);
  }

  predicate StartsWith(s: string, prefix: string)
  {
    |prefix| <= |s| && s[..|prefix|] == prefix
  }

  /** Appending keeps a prefix. */
  lemma StartsWithAppend(s: string, t: string, prefix: string)
    requires StartsWith(s, prefix)
    ensures StartsWith(s + t, prefix)
  {
    assert (s + t)[..|prefix|] == s[..|prefix|];
  }

  /** The text of the summary from the ladder noun on, as a function of the two counts. */
  lemma AggregateTextStartsWithHead(ladders: nat, shafts: nat, head: string)
    requires StartsWith((if ladders > 0 then Text.NatToString(ladders) + " ladder" else "")
                        + (if ladders > 1 then "s" else "")
                        + (if ladders > 1 && shafts > 0 then " and" else "")
                        + (if shafts > 0 then " " + Text.NatToString(shafts) + " shaft" else ""), head)
    ensures StartsWith(AggregateText(ladders, shafts), head)
  {
    var a := (if ladders > 0 then Text.NatToString(ladders) + " ladder" else "")
      + (if ladders > 1 then "s" else "")
      + (if ladders > 1 && shafts > 0 then " and" else "")
      + (if shafts > 0 then " " + Text.NatToString(shafts) + " shaft" else "");
    var b := a + (if shafts > 1 then "s" else "");
    StartsWithAppend(a, if shafts > 1 then "s" else "", head);
    var c := b + (if ladders + shafts > 1 then " have" else " has");
    StartsWithAppend(b, if ladders + shafts > 1 then " have" else " has", head);
    StartsWithAppend(c, AggregateTail, head);
  }

  /** With a ladder, the summary opens with the ladder count in decimal, which reads back as that count. */
  lemma AggregateTextOpensWithCount(ladders: nat, shafts: nat)
    requires ladders > 0
    ensures var d := Text.NatToString(ladders);
      StartsWith(AggregateText(ladders, shafts), d) && Text.ParseNat(AggregateText(ladders, shafts)[..|d|]) == ladders
  {
    var d := Text.NatToString(ladders);
    var a := d + " ladder";
    StartsWithAppend(d, " ladder", d);
    var b := a + (if ladders > 1 then "s" else "");
    StartsWithAppend(a, if ladders > 1 then "s" else "", d);
    var c := b + (if ladders > 1 && shafts > 0 then " and" else "");
    StartsWithAppend(b, if ladders > 1 && shafts > 0 then " and" else "", d);
    StartsWithAppend(c, if shafts > 0 then " " + Text.NatToString(shafts) + " shaft" else "", d);
    AggregateTextStartsWithHead(ladders, shafts, d);
    Text.ParseNatToString(ladders);
  }

  /** Without a ladder, the summary opens with a space. */
  lemma AggregateTextOpensWithSpace(shafts: nat)
    requires shafts > 0
    ensures StartsWith(AggregateText(0, shafts), " ")
  {
    var a := " " + Text.NatToString(shafts) + " shaft";
    assert a == " " + (Text.NatToString(shafts) + " shaft");
    StartsWithAppend(" ", Text.NatToString(shafts) + " shaft", " ");
    assert "" + "" + "" + a == a;
    AggregateTextStartsWithHead(0, shafts, " ");
  }

  predicate EndsWith(s: string, suffix: string)
  {
    |suffix| <= |s| && s[|s| - |suffix|..] == suffix
  }

  /** Individual announcements are sound then message; the summary is message then sound. */
  lemma OutputOrder(m: Mark, ladders: nat, shafts: nat)
    requires m != Unknown
    ensures Notice(m, DefaultConfig) == [Sound(NotifySound), Message(NoticeText(m))]
    ensures Aggregate(ladders, shafts, DefaultConfig) == [Message(AggregateText(ladders, shafts)), Sound(NotifySound)]
  {
  }
}

=== FILE: grids.dfy ===
/** Optional values: a tile slot of the map layer may hold no tile at all. */
module Options {

  datatype Option<+T> = None | Some(value: T)
}

/**
 Two-dimensional grids indexed `[x, y]`, as the host's `T[,]` arrays are, and the
 x-major visiting order of the tracker's nested `for x … for y …` loops.
 */
module Grids {

  /** A cell coordinate; `x` is the column and `y` the row. */
  datatype Pos = Pos(x: nat, y: nat)

  /** A `width × height` array stored as `width` columns of `height` cells each. */
  datatype Grid<T> = Grid(width: nat, height: nat, cols: seq<seq<T>>)

  /** The columns really have the declared dimensions. */
  predicate Valid<T>(g: Grid<T>)
  {
    && |g.cols| == g.width
    && forall x :: 0 <= x < |g.cols| ==> |g.cols[x]| == g.height
  }

  predicate InBounds<T>(g: Grid<T>, p: Pos)
  {
    p.x < g.width && p.y < g.height
  }

  predicate SameShape<T, U>(a: Grid<T>, b: Grid<U>)
  {
    a.width == b.width && a.height == b.height
  }

  function Get<T>(g: Grid<T>, p: Pos): T
    requires Valid(g) && InBounds(g, p)
  {
    g.cols[p.x][p.y]
  }

  /** Reads a cell, or `default` when the grid has no cell at `p`. */
  function Lookup<T>(g: Grid<T>, p: Pos, default: T): (v: T)
    ensures Valid(g) && InBounds(g, p) ==> v == Get(g, p)
  {
    if p.x < |g.cols| && p.y < |g.cols[p.x]| then g.cols[p.x][p.y] else default
  }

  /** Writes one cell and leaves every other cell as it was. */
  function Update<T>(g: Grid<T>, p: Pos, v: T): (r: Grid<T>)
    requires Valid(g) && InBounds(g, p)
    ensures Valid(r) && SameShape(r, g)
    ensures Get(r, p) == v
    ensures forall q :: InBounds(g, q) && q != p ==> Get(r, q) == Get(g, q)
  {
    g.(cols := g.cols[p.x := g.cols[p.x][p.y := v]])
  }

  /** A freshly allocated `width × height` array with every cell set to `v`. */
  function Filled<T>(width: nat, height: nat, v: T): (r: Grid<T>)
    ensures Valid(r) && r.width == width && r.height == height
    ensures forall q :: InBounds(r, q) ==> Get(r, q) == v
  {
    Grid(width, height, seq(width, _ => seq(height, _ => v)))
  }

  /** `p` is visited before `q` by a loop over `x` whose body loops over `y`. */
  predicate Before(p: Pos, q: Pos)
  {
    p.x < q.x || (p.x == q.x && p.y < q.y)
  }

  /** Strictly increasing in x-major order; in particular, no position repeats. */
  predicate Ascending(ps: seq<Pos>)
  {
    forall i, j :: 0 <= i < j < |ps| ==> Before(ps[i], ps[j])
  }

  /** The cells `(x, 0) … (x, height - 1)` of one column, top to bottom. */
  function Column(x: nat, height: nat): (ps: seq<Pos>)
    ensures |ps| == height
    ensures forall p :: p in ps <==> p.x == x && p.y < height
    ensures forall i :: 0 <= i < |ps| ==> ps[i] == Pos(x, i)
  {
    if height == 0 then [] else Column(x, height - 1) + [Pos(x, height - 1)]
  }

  /** Every cell of a `width × height` grid, each exactly once, in x-major order. */
  function XMajor(width: nat, height: nat): (ps: seq<Pos>)
    ensures forall p :: p in ps <==> p.x < width && p.y < height
    ensures Ascending(ps)
  {
    if width == 0 then []
    else
      var left := XMajor(width - 1, height);
      var right := Column(width - 1, height);
      assert forall i, j :: 0 <= i < |left| && 0 <= j < |right| ==> Before(left[i], right[j]) by {
        forall i, j | 0 <= i < |left| && 0 <= j < |right|
          ensures Before(left[i], right[j])
        {
          assert left[i] in left;
        }
      }
      left + right
  }

  /** Two well-formed grids of one shape that agree on every cell are the same grid. */
  lemma CellwiseEqual<T>(a: Grid<T>, b: Grid<T>)
    requires Valid(a) && Valid(b) && SameShape(a, b)
    requires forall q :: InBounds(a, q) ==> Get(a, q) == Get(b, q)
    ensures a == b
  {
    forall x | 0 <= x < a.width
      ensures a.cols[x] == b.cols[x]
    {
      forall y | 0 <= y < a.height
        ensures a.cols[x][y] == b.cols[x][y]
      {
        assert Get(a, Pos(x, y)) == Get(b, Pos(x, y));
      }
    }
  }
}

=== FILE: text.dfy ===
/**
 Decimal rendering of counts, as C#'s string interpolation `$"{n}"` prints a
 non-negative `int`, and its inverse.
 */
module Text {

  predicate IsDigit(c: char)
  {
    '0' <= c <= '9'
  }

  function DigitChar(d: nat): (c: char)
    requires d < 10
    ensures IsDigit(c)
  {
    (d + '0' as int) as char
  }

  function DigitValue(c: char): (d: nat)
    requires IsDigit(c)
    ensures d < 10
  {
    (c as int - '0' as int) as nat
  }

  /** Shortest decimal form of `n`: digits only, no leading zero. */
  function NatToString(n: nat): (s: string)
    ensures |s| > 0
    ensures forall i :: 0 <= i < |s| ==> IsDigit(s[i])
    ensures |s| > 1 ==> s[0] != '0'
  {
    if n < 10 then [DigitChar(n)] else NatToString(n / 10) + [DigitChar(n % 10)]
  }

  /** Reads a string of decimal digits back as a number. */
  function ParseNat(s: string): nat
    requires forall i :: 0 <= i < |s| ==> IsDigit(s[i])
  {
    if s == [] then 0 else ParseNat(s[..|s| - 1]) * 10 + DigitValue(s[|s| - 1])
  }

  /** Parsing the rendering of `n` gives `n` back. */
  lemma {:induction false} ParseNatToString(n: nat)
    ensures ParseNat(NatToString(n)) == n
  {
    var s := NatToString(n);
    if n < 10 {
      assert s[..|s| - 1] == [];
    } else {
      assert s[..|s| - 1] == NatToString(n / 10);
      ParseNatToString(n / 10);
    }
  }

  /** Distinct counts render differently. */
  lemma NatToStringInjective(m: nat, n: nat)
    requires NatToString(m) == NatToString(n)
    ensures m == n
  {
    ParseNatToString(m);
    ParseNatToString(n);
  }
}

=== FILE: tracker.dfy ===
/**
 The discovery tracker's session and its event handlers. Each handler is a
 pure step from one session to the next, returning the host calls it makes.

 The host world is passed in, not read from globals: a `Host` view says where
 the player is now and what the host currently shows there, and a `Player`
 says what the tracker asks of `Game1.player`.
 */
module Tracker {

  import opened Options
  import opened Grids
  import opened Discovery

  /** Update ticks to wait after a warp before the location is examined. */
  const ResetDelay := 3
  /** Update ticks to wait after a reset before the per-second monster poll may run. */
  const ReadyDelay := 5
  /** Qualified item id of the placeable staircase. */
  const StaircaseItem := "(BC)71"

  /** The facts the tracker reads from the local player. */
  datatype Player = Player(isLocal: bool, isBusy: bool, heldItem: Option<string>, staircasesHeld: nat)

  /**
   The location the player is in: a mine level (a `MineShaft`) with its level
   number, the stones still on it, the monsters among its characters and the
   tile slots of its "Buildings" layer, or anywhere else.
   */
  datatype Location =
    | Elsewhere
    | Mine(mineLevel: int, stonesLeft: int, monsters: nat, buildings: Grid<Tile>)

  /**
   What the host shows on an update tick: the current location, the present
   contents of the tile layer captured at the last session reset (the scanner
   keeps reading that layer until the next reset, even after a warp), and the
   local player.
   */
  datatype Host = Host(loc: Location, captured: Grid<Tile>, player: Player)

  /** The host callbacks the tracker subscribes to. */
  datatype Event =
    | Warped
    | UpdateTicked(host: Host)
    | OneSecondUpdateTicked(host: Host)
    | ButtonPressed(isActionButton: bool, player: Player)
    | InventoryChanged(player: Player)

  /** The tracker's fields. */
  datatype Session = Session(
    doLocationChecks: bool,       // a warp is waiting for its debounced reset
    ticks: nat,                   // the one counter both debounces share
    inMine: bool,
    prepareLevelReady: bool,      // a reset happened; the second debounce is running
    levelReady: bool,             // the monster poll may run
    staircaseUsed: bool,          // swallow the first new ladder of the next incremental sweep
    staircasesInInventory: int,   // last staircase count seen; never reassigned
    marks: Grid<Mark>,            // the discovery grid of the current level
    stones: int,                  // stones left when last looked at
    monsters: nat)                // monsters present when last counted

  /** The fields as the tracker is constructed. */
  const Start := Session(false, 0, false, false, false, false, 0, Grid(0, 0, []), 0, 0)

  predicate WellFormed(s: Session)
  {
    Valid(s.marks)
  }

  /** A session and the host calls that produced it. */
  datatype Next = Next(session: Session, out: seq<Output>)

  /** The player is the local one and is free to act. */
  predicate ValidPlayer(p: Player)
  {
    p.isLocal && !p.isBusy
  }

  // ---------------------------------------------------------------------------
  // Actions
  // ---------------------------------------------------------------------------

  /**
   Sets the staircase flag when the staircase count in the inventory dropped.
   The remembered count is never updated, so it stays at its initial 0.
   */
  function CheckStaircasesInInventory(s: Session, p: Player): (r: Session)
    ensures r == s.(staircaseUsed := r.staircaseUsed)
    ensures r.staircaseUsed <==> s.staircaseUsed || (ValidPlayer(p) && p.staircasesHeld < s.staircasesInInventory)
  {
    if !ValidPlayer(p) then s
    else if s.staircasesInInventory > p.staircasesHeld then s.(staircaseUsed := true)
    else s
  }

  /** Runs the scanner on the session's grid, provided the player is in a mine level. */
  function TryFindLaddersOrShafts(s: Session, loc: Location, tiles: Grid<Tile>, initial: bool, cfg: Config): (n: Next)
    requires WellFormed(s)
    ensures WellFormed(n.session) && SameShape(n.session.marks, s.marks)
    ensures n.session == s.(marks := n.session.marks, staircaseUsed := n.session.staircaseUsed)
    ensures loc.Elsewhere? ==> n == Next(s, [])
  {
    match loc
    case Elsewhere => Next(s, [])
    case Mine(mineLevel, _, _, _) =>
      var r := Scan(s.marks, tiles, mineLevel, initial, s.staircaseUsed, cfg);
      Next(s.(marks := r.marks, staircaseUsed := r.flag), r.out)
  }

  /**
   Counts the monsters of the current mine level; when asked to, and when there
   are fewer than last time, scans for what a slain monster may have left. The
   count is stored either way.
   */
  function CheckAmountOfMonstersInLevel(s: Session, loc: Location, tiles: Grid<Tile>, checkForLadders: bool, cfg: Config): (n: Next)
    requires WellFormed(s)
    ensures WellFormed(n.session) && SameShape(n.session.marks, s.marks)
    ensures n.session == s.(marks := n.session.marks, staircaseUsed := n.session.staircaseUsed, monsters := n.session.monsters)
    ensures loc.Mine? ==> n.session.monsters == loc.monsters
    ensures !(checkForLadders && loc.Mine? && loc.monsters < s.monsters) ==>
      n.out == [] && n.session.marks == s.marks && n.session.staircaseUsed == s.staircaseUsed
    ensures loc.Elsewhere? ==> n == Next(s, [])
  {
    match loc
    case Elsewhere => Next(s, [])
    case Mine(_, _, count, _) =>
      var n := if checkForLadders && count < s.monsters then TryFindLaddersOrShafts(s, loc, tiles, false, cfg)
               else Next(s, []);
      Next(n.session.(monsters := count), n.out)
  }

  /**
   The session reset. In a mine level: forget readiness, take the stone count,
   allocate a fresh grid of the layer's dimensions, take the monster count
   without scanning, run the initial sweep over the layer and start the second
   debounce. Anywhere else: leave mine mode, and nothing more; a readiness
   debounce already running keeps running.
   */
  function CheckLocation(s: Session, h: Host, cfg: Config): (n: Next)
    requires WellFormed(s)
    ensures WellFormed(n.session)
    ensures n.session.staircasesInInventory == s.staircasesInInventory
    ensures n.session.doLocationChecks == s.doLocationChecks && n.session.ticks == s.ticks && !n.session.levelReady
    ensures h.loc.Mine? ==>
      && n.session.inMine && n.session.prepareLevelReady
      && n.session.stones == h.loc.stonesLeft && n.session.monsters == h.loc.monsters
      && SameShape(n.session.marks, h.loc.buildings)
    ensures h.loc.Elsewhere? ==>
      && !n.session.inMine && n.session.stones == 0 && n.out == []
      && n.session.marks == s.marks && n.session.staircaseUsed == s.staircaseUsed
    ensures h.loc.Elsewhere? ==> n == Next(s.(inMine := false, levelReady := false, stones := 0), [])
  {
    match h.loc
    case Mine(_, stonesLeft, _, layer) =>
      var s1 := s.(levelReady := false, inMine := true, stones := stonesLeft, monsters := 0);
      var s2 := CheckStaircasesInInventory(s1, h.player);
      var s3 := s2.(marks := Filled(layer.width, layer.height, Unknown));
      var n4 := CheckAmountOfMonstersInLevel(s3, h.loc, layer, false, cfg);
      var n5 := TryFindLaddersOrShafts(n4.session, h.loc, layer, true, cfg);
      Next(n5.session.(prepareLevelReady := true), n4.out + n5.out)
    case Elsewhere =>
      Next(s.(inMine := false, levelReady := false, stones := 0), [])
  }

  // ---------------------------------------------------------------------------
  // Event handlers
  // ---------------------------------------------------------------------------

  /** A warp schedules a reset and clears the staircase flag; the tick counter is left alone. */
  function OnPlayerWarped(s: Session): Session
  {
    s.(doLocationChecks := true, staircaseUsed := false)
  }

  /**
   Every update tick: the reset debounce (a pending reset runs once the counter
   has reached 3), then the rest of the tick. A debounce that is still counting
   ends the tick early.
   */
  function OnUpdateTicked(s: Session, h: Host, cfg: Config): (n: Next)
    requires WellFormed(s)
    ensures WellFormed(n.session)
    ensures n.session.staircasesInInventory == s.staircasesInInventory
    ensures n.session.doLocationChecks <==> s.doLocationChecks && s.ticks < ResetDelay
    ensures s.doLocationChecks && s.ticks < ResetDelay ==> n.out == [] && n.session.marks == s.marks
  {
    if s.doLocationChecks && s.ticks < ResetDelay then Next(s.(ticks := s.ticks + 1), [])
    else
      var n1 := if s.doLocationChecks then CheckLocation(s.(ticks := 0, doLocationChecks := false), h, cfg)
                else Next(s, []);
      var n2 := AfterLocationCheck(n1.session, h, cfg);
      Next(n2.session, n1.out + n2.out)
  }

  /**
   The rest of an update tick: the readiness debounce (the level becomes ready
   once the counter has reached 5), then, in a mine level, a scan when the
   stone count has gone down.
   */
  function AfterLocationCheck(s: Session, h: Host, cfg: Config): (n: Next)
    requires WellFormed(s)
    ensures WellFormed(n.session)
    ensures n.session.staircasesInInventory == s.staircasesInInventory
    ensures n.session.doLocationChecks == s.doLocationChecks && n.session.inMine == s.inMine
    ensures s.prepareLevelReady && !s.doLocationChecks && s.ticks < ReadyDelay ==>
      n.out == [] && n.session == s.(ticks := s.ticks + 1)
    ensures n.session.stones != s.stones ==> s.inMine && h.loc.Mine? && n.session.stones == h.loc.stonesLeft < s.stones
  {
    if s.prepareLevelReady && !s.doLocationChecks && s.ticks < ReadyDelay then Next(s.(ticks := s.ticks + 1), [])
    else
      var s2 := if s.prepareLevelReady && !s.doLocationChecks
                then s.(ticks := 0, prepareLevelReady := false, levelReady := true)
                else s;
      if s2.inMine && h.loc.Mine? && s2.stones > h.loc.stonesLeft
      then TryFindLaddersOrShafts(s2.(stones := h.loc.stonesLeft), h.loc, h.captured, false, cfg)
      else Next(s2, [])
  }

  /** Once a second, in a ready mine level: the monster poll. */
  function OnOneSecondUpdateTicked(s: Session, h: Host, cfg: Config): (n: Next)
    requires WellFormed(s)
    ensures WellFormed(n.session)
    ensures n.session == s.(marks := n.session.marks, staircaseUsed := n.session.staircaseUsed, monsters := n.session.monsters)
    ensures !(s.inMine && s.levelReady && h.loc.Mine?) ==> n == Next(s, [])
  {
    if s.inMine && s.levelReady && h.loc.Mine? then CheckAmountOfMonstersInLevel(s, h.loc, h.captured, true, cfg)
    else Next(s, [])
  }

  /** Pressing the action button while holding a staircase sets the staircase flag. */
  function OnButtonPressed(s: Session, isActionButton: bool, p: Player): (r: Session)
    ensures r == s.(staircaseUsed := r.staircaseUsed)
    ensures r.staircaseUsed <==> s.staircaseUsed || (isActionButton && ValidPlayer(p) && p.heldItem == Some(StaircaseItem))
  {
    if isActionButton && ValidPlayer(p) && p.heldItem == Some(StaircaseItem) then s.(staircaseUsed := true)
    else s
  }

  function OnInventoryChanged(s: Session, p: Player): (r: Session)
    ensures r == s.(staircaseUsed := r.staircaseUsed)
    ensures r.staircaseUsed <==> s.staircaseUsed || (s.inMine && ValidPlayer(p) && p.staircasesHeld < s.staircasesInInventory)
  {
    if s.inMine then CheckStaircasesInInventory(s, p) else s
  }

  /** Dispatches one host callback to its handler. */
  function Step(s: Session, e: Event, cfg: Config): (n: Next)
    requires WellFormed(s)
    ensures WellFormed(n.session)
    ensures n.session.staircasesInInventory == s.staircasesInInventory
  {
    match e
    case Warped => Next(OnPlayerWarped(s), [])
    case UpdateTicked(h) => OnUpdateTicked(s, h, cfg)
    case OneSecondUpdateTicked(h) => OnOneSecondUpdateTicked(s, h, cfg)
    case ButtonPressed(isActionButton, p) => Next(OnButtonPressed(s, isActionButton, p), [])
    case InventoryChanged(p) => Next(OnInventoryChanged(s, p), [])
  }

  /** A sequence of callbacks, handled one after another; the host calls are concatenated. */
  function Run(s: Session, es: seq<Event>, cfg: Config): (n: Next)
    requires WellFormed(s)
    ensures WellFormed(n.session)
    decreases |es|
  {
    if es == [] then Next(s, [])
    else
      var n1 := Step(s, es[0], cfg);
      var n2 := Run(n1.session, es[1..], cfg);
      Next(n2.session, n1.out + n2.out)
  }
}

=== FILE: tracker_facts.dfy ===
/**
 Properties of the tracker over single callbacks and over sequences of them:
 the two debounces, what a reset leaves behind, when scans run, where the
 staircase flag can come from, and that discovery marks only grow between
 resets.
 */
module TrackerFacts {

  import opened Options
  import opened Grids
  import opened Discovery
  import opened DiscoveryFacts
  import opened Tracker

  /** One update tick per host view. */
  function Ticks(hs: seq<Host>): seq<Event>
  {
    seq(|hs|, i requires 0 <= i < |hs| => UpdateTicked(hs[i]))
  }

  /** `e` is the update tick on which a pending warp's reset runs. */
  predicate IsReset(s: Session, e: Event)
  {
    e.UpdateTicked? && s.doLocationChecks && s.ticks >= ResetDelay
  }

  /** Known cells keep their marks and the grid keeps its shape. */
  ghost predicate Extends(before: Grid<Mark>, after: Grid<Mark>)
  {
    && Valid(before) && Valid(after) && SameShape(before, after)
    && forall q :: InBounds(before, q) && Get(before, q) != Unknown ==> Get(after, q) == Get(before, q)
  }

  // ---------------------------------------------------------------------------
  // The scanner inside a session
  // ---------------------------------------------------------------------------

  /**
   A scan in a mine level changes only the grid and the staircase flag. Known
   cells keep their marks and unknown ones take what their tile shows. An
   initial sweep leaves the flag and announces only the summary; an incremental
   one announces each discovery, the flag swallowing the first ladder.
   */
  lemma TryFindSpec(s: Session, loc: Location, tiles: Grid<Tile>, initial: bool, cfg: Config)
    requires WellFormed(s) && loc.Mine?
    ensures var n := TryFindLaddersOrShafts(s, loc, tiles, initial, cfg);
      var fs := ScanFinds(s.marks, tiles, loc.mineLevel);
      && n.session == s.(marks := n.session.marks, staircaseUsed := n.session.staircaseUsed)
      && (forall q :: InBounds(s.marks, q) ==>
            Get(n.session.marks, q) == NewMark(Get(s.marks, q), Lookup(tiles, q, None), loc.mineLevel))
      && (initial ==>
            && n.session.staircaseUsed == s.staircaseUsed
            && n.out == if cfg.checkOnLoad && |fs| > 0 then Aggregate(CountOf(fs, Ladder), CountOf(fs, Shaft), cfg) else [])
      && (!initial ==>
            && n.session.staircaseUsed == (s.staircaseUsed && !HasLadder(fs))
            && n.out == Notices(if s.staircaseUsed then DropFirstLadder(fs) else fs, cfg))
  {
    ScanSpec(s.marks, tiles, loc.mineLevel, initial, s.staircaseUsed, cfg);
  }

  // ---------------------------------------------------------------------------
  // Debounces and the reset
  // ---------------------------------------------------------------------------

  /**
   While a reset is pending and the counter is below 3, every update tick only
   counts: after `3 - ticks` of them nothing but the counter has changed and
   nothing was announced, whatever the host showed.
   */
  lemma {:induction false} ResetDebounce(s: Session, hs: seq<Host>, cfg: Config)
    requires WellFormed(s) && s.doLocationChecks && s.ticks <= ResetDelay
    requires |hs| == ResetDelay - s.ticks
    ensures Run(s, Ticks(hs), cfg) == Next(s.(ticks := ResetDelay), [])
    decreases |hs|
  {
    if hs != [] {
      assert Ticks(hs)[1..] == Ticks(hs[1..]);
      ResetDebounce(s.(ticks := s.ticks + 1), hs[1..], cfg);
    }
  }

  /**
   A warp does not restart the counter. From counter `t`, the reset runs on the
   update tick that follows `3 - t` counting ticks, or on the very next tick when
   `t` is already 3 or more (a warp during the readiness debounce).
   */
  lemma WarpThenReset(s: Session, hs: seq<Host>, h: Host, cfg: Config)
    requires WellFormed(s)
    requires |hs| == if s.ticks < ResetDelay then ResetDelay - s.ticks else 0
    ensures var w := Run(s, [Warped] + Ticks(hs), cfg);
      && w.out == []
      && w.session == s.(doLocationChecks := true, staircaseUsed := false,
                         ticks := if s.ticks < ResetDelay then ResetDelay else s.ticks)
      && IsReset(w.session, UpdateTicked(h))
  {
    var es := [Warped] + Ticks(hs);
    assert es[1..] == Ticks(hs);
    var s1 := OnPlayerWarped(s);
    if s.ticks < ResetDelay {
      ResetDebounce(s1, hs, cfg);
    } else {
      assert Ticks(hs) == [];
    }
  }

  /**
   The reset tick into a mine level starts the level afresh: a new grid of the
   layer's dimensions in which only what the layer shows is marked (no earlier
   mark survives), stone and monster counts taken from the level, readiness
   cleared and its debounce begun (this tick already counts 1), the flag left as
   it was unless the inventory check fires, and nothing announced but the
   summary of the initial sweep.
   */
  lemma ResetIntoMine(s: Session, h: Host, cfg: Config)
    requires WellFormed(s) && IsReset(s, UpdateTicked(h)) && h.loc.Mine?
    ensures var n := OnUpdateTicked(s, h, cfg);
      var layer := h.loc.buildings;
      var blank := Filled(layer.width, layer.height, Unknown);
      var fs := ScanFinds(blank, layer, h.loc.mineLevel);
      && !n.session.doLocationChecks && n.session.inMine
      && !n.session.levelReady && n.session.prepareLevelReady && n.session.ticks == 1
      && n.session.stones == h.loc.stonesLeft && n.session.monsters == h.loc.monsters
      && n.session.marks.width == layer.width && n.session.marks.height == layer.height
      && (forall q :: InBounds(n.session.marks, q) ==>
            Get(n.session.marks, q) == Classify(Lookup(layer, q, None), h.loc.mineLevel))
      && n.session.staircaseUsed == (s.staircaseUsed || (ValidPlayer(h.player) && s.staircasesInInventory > h.player.staircasesHeld))
      && n.out == if cfg.checkOnLoad && |fs| > 0 then Aggregate(CountOf(fs, Ladder), CountOf(fs, Shaft), cfg) else []
  {
    var layer := h.loc.buildings;
    var s0 := s.(ticks := 0, doLocationChecks := false);
    var s1 := s0.(levelReady := false, inMine := true, stones := h.loc.stonesLeft, monsters := 0);
    var s2 := CheckStaircasesInInventory(s1, h.player);
    var s3 := s2.(marks := Filled(layer.width, layer.height, Unknown));
    var n4 := CheckAmountOfMonstersInLevel(s3, h.loc, layer, false, cfg);
    assert n4 == Next(s3.(monsters := h.loc.monsters), []);
    TryFindSpec(n4.session, h.loc, layer, true, cfg);
  }

  /**
   The reset tick outside a mine only leaves mine mode; the grid, the flag and
   the monster count are kept. A readiness debounce that a warp interrupted is
   not cancelled: it goes on counting from the reset's 0.
   */
  lemma ResetElsewhere(s: Session, h: Host, cfg: Config)
    requires WellFormed(s) && IsReset(s, UpdateTicked(h)) && h.loc.Elsewhere?
    ensures var n := OnUpdateTicked(s, h, cfg);
      && !n.session.doLocationChecks && !n.session.inMine && !n.session.levelReady
      && n.session.stones == 0 && n.session.marks == s.marks && n.out == []
    ensures OnUpdateTicked(s, h, cfg) ==
      Next(s.(doLocationChecks := false, inMine := false, levelReady := false, stones := 0,
              ticks := if s.prepareLevelReady then 1 else 0), [])
  {
  }

  /**
   A readiness debounce interrupted by a warp out of the mine survives the reset:
   after the reset tick and four more ticks outside any mine, the next tick
   makes the level "ready" although the player is in no mine level.
   */
  lemma ReadyOutsideMine(s: Session, h: Host, hs: seq<Host>, h2: Host, cfg: Config)
    requires WellFormed(s) && IsReset(s, UpdateTicked(h)) && h.loc.Elsewhere? && s.prepareLevelReady
    requires |hs| == ReadyDelay - 1
    ensures var n1 := OnUpdateTicked(s, h, cfg);
      var n2 := Run(n1.session, Ticks(hs), cfg);
      var n3 := OnUpdateTicked(n2.session, h2, cfg);
      && n1.session.prepareLevelReady && n1.session.ticks == 1
      && n3.session.levelReady && !n3.session.inMine && n2.out == [] && n3.out == []
  {
    ResetElsewhere(s, h, cfg);
    var n1 := OnUpdateTicked(s, h, cfg);
    ReadyDebounce(n1.session, hs, h2, cfg);
  }

  /**
   After a reset the readiness debounce only counts: from counter `t` (at most
   5), `5 - t` update ticks change nothing but the counter and announce nothing
   (stones mined meanwhile are not looked at); the next tick makes the level
   ready and restarts the counter.
   */
  lemma {:induction false} ReadyDebounce(s: Session, hs: seq<Host>, h: Host, cfg: Config)
    requires WellFormed(s) && s.prepareLevelReady && !s.doLocationChecks && s.ticks <= ReadyDelay
    requires |hs| == ReadyDelay - s.ticks
    ensures Run(s, Ticks(hs), cfg) == Next(s.(ticks := ReadyDelay), [])
    ensures var n := OnUpdateTicked(s.(ticks := ReadyDelay), h, cfg);
      n.session.levelReady && !n.session.prepareLevelReady && n.session.ticks == 0
    decreases |hs|
  {
    if hs != [] {
      assert Ticks(hs)[1..] == Ticks(hs[1..]);
      ReadyDebounce(s.(ticks := s.ticks + 1), hs[1..], h, cfg);
    }
    var r := s.(ticks := ReadyDelay);
    var s2 := r.(ticks := 0, prepareLevelReady := false, levelReady := true);
    if s2.inMine && h.loc.Mine? && s2.stones > h.loc.stonesLeft {
      TryFindSpec(s2.(stones := h.loc.stonesLeft), h.loc, h.captured, false, cfg);
    }
  }

  /**
   A level becomes ready only on an update tick that finds the readiness
   debounce running, no reset pending and the counter at 5 or more, and such a
   tick always makes it ready.
   */
  lemma LevelReadyOnlyAfterDebounce(s: Session, e: Event, cfg: Config)
    requires WellFormed(s)
    ensures !s.levelReady && Step(s, e, cfg).session.levelReady ==>
      e.UpdateTicked? && s.prepareLevelReady && !s.doLocationChecks && s.ticks >= ReadyDelay
    ensures e.UpdateTicked? && s.prepareLevelReady && !s.doLocationChecks && s.ticks >= ReadyDelay ==>
      Step(s, e, cfg).session.levelReady
  {
    match e
    case UpdateTicked(h) =>
      if s.doLocationChecks && s.ticks >= ResetDelay {
        if h.loc.Mine? {
          ResetIntoMine(s, h, cfg);
        }
      } else if !s.doLocationChecks {
        var s2 := if s.prepareLevelReady && s.ticks >= ReadyDelay
                  then s.(ticks := 0, prepareLevelReady := false, levelReady := true) else s;
        if s2.inMine && h.loc.Mine? && s2.stones > h.loc.stonesLeft {
          TryFindSpec(s2.(stones := h.loc.stonesLeft), h.loc, h.captured, false, cfg);
        }
      }
    case OneSecondUpdateTicked(h) =>
      if s.inMine && s.levelReady && h.loc.Mine? && h.loc.monsters < s.monsters {
        TryFindSpec(s, h.loc, h.captured, false, cfg);
      }
    case _ =>
  }

  // ---------------------------------------------------------------------------
  // What triggers a scan
  // ---------------------------------------------------------------------------

  /**
   Once no debounce is counting (including the tick on which the readiness
   debounce completes and makes the level ready), an update tick scans exactly
   when the player is in a mine level and its stone count has gone down; the
   stored count then follows the level's. A count that stayed or went up
   changes nothing beyond readiness, not even the stored count. The staircase
   flag does not stop the scan.
   */
  lemma StoneTrigger(s: Session, h: Host, cfg: Config)
    requires WellFormed(s) && !s.doLocationChecks && !(s.prepareLevelReady && s.ticks < ReadyDelay)
    ensures var s2 := if s.prepareLevelReady then s.(ticks := 0, prepareLevelReady := false, levelReady := true) else s;
      var n := OnUpdateTicked(s, h, cfg);
      && (s.inMine && h.loc.Mine? && s.stones > h.loc.stonesLeft ==>
            && n == TryFindLaddersOrShafts(s2.(stones := h.loc.stonesLeft), h.loc, h.captured, false, cfg)
            && n.session.stones == h.loc.stonesLeft)
      && (!(s.inMine && h.loc.Mine? && s.stones > h.loc.stonesLeft) ==> n == Next(s2, []))
  {
    var s2 := if s.prepareLevelReady then s.(ticks := 0, prepareLevelReady := false, levelReady := true) else s;
    if s.inMine && h.loc.Mine? && s.stones > h.loc.stonesLeft {
      TryFindSpec(s2.(stones := h.loc.stonesLeft), h.loc, h.captured, false, cfg);
    }
  }

  /**
   The per-second poll runs only in a ready mine level. It always stores the
   level's monster count, and scans exactly when that count is below the stored
   one. A kill and a spawn between two polls leave the count unchanged, so no
   scan runs for that kill.
   */
  lemma MonsterTrigger(s: Session, h: Host, cfg: Config)
    requires WellFormed(s)
    ensures var n := OnOneSecondUpdateTicked(s, h, cfg);
      && (!(s.inMine && s.levelReady && h.loc.Mine?) ==> n == Next(s, []))
      && (s.inMine && s.levelReady && h.loc.Mine? ==>
            && n.session.monsters == h.loc.monsters
            && (h.loc.monsters < s.monsters ==>
                  var t := TryFindLaddersOrShafts(s, h.loc, h.captured, false, cfg);
                  n == Next(t.session.(monsters := h.loc.monsters), t.out))
            && (h.loc.monsters >= s.monsters ==> n == Next(s.(monsters := h.loc.monsters), [])))
  {
    if s.inMine && s.levelReady && h.loc.Mine? && h.loc.monsters < s.monsters {
      TryFindSpec(s, h.loc, h.captured, false, cfg);
    }
  }

  // ---------------------------------------------------------------------------
  // The staircase flag
  // ---------------------------------------------------------------------------

  /** A scan can clear the staircase flag but never set it. */
  lemma ScanNeverSetsFlag(s: Session, loc: Location, tiles: Grid<Tile>, initial: bool, cfg: Config)
    requires WellFormed(s)
    ensures TryFindLaddersOrShafts(s, loc, tiles, initial, cfg).session.staircaseUsed ==> s.staircaseUsed
  {
    if loc.Mine? {
      TryFindSpec(s, loc, tiles, initial, cfg);
    }
  }

  /** With the remembered staircase count at its initial 0, the inventory check never fires. */
  lemma InventoryCheckInert(s: Session, p: Player)
    requires s.staircasesInInventory == 0
    ensures CheckStaircasesInInventory(s, p) == s
  {
  }

  /** No callback ever changes the remembered staircase count. */
  lemma {:induction false} StaircaseCountFixed(s: Session, es: seq<Event>, cfg: Config)
    requires WellFormed(s)
    ensures Run(s, es, cfg).session.staircasesInInventory == s.staircasesInInventory
    decreases |es|
  {
    if es != [] {
      StaircaseCountFixed(Step(s, es[0], cfg).session, es[1..], cfg);
    }
  }

  /** Every session reached from the constructed tracker remembers 0 staircases. */
  lemma FromStart(es: seq<Event>, cfg: Config)
    ensures Run(Start, es, cfg).session.staircasesInInventory == 0
  {
    StaircaseCountFixed(Start, es, cfg);
  }

  /**
   In a session whose remembered staircase count is 0, as every session reached
   from the start is (`FromStart`), the staircase flag is raised by exactly one thing: the
   action button pressed by the local, idle player holding a staircase.
   */
  lemma FlagOnlyFromButton(s: Session, e: Event, cfg: Config)
    requires WellFormed(s) && s.staircasesInInventory == 0 && !s.staircaseUsed
    ensures Step(s, e, cfg).session.staircaseUsed <==>
      e.ButtonPressed? && e.isActionButton && ValidPlayer(e.player) && e.player.heldItem == Some(StaircaseItem)
  {
    match e
    case UpdateTicked(h) =>
      if s.doLocationChecks && s.ticks >= ResetDelay && h.loc.Mine? {
        ResetIntoMine(s, h, cfg);
      }
      var n1 := if s.doLocationChecks && s.ticks >= ResetDelay
                then CheckLocation(s.(ticks := 0, doLocationChecks := false), h, cfg) else Next(s, []);
      var s2 := n1.session.(ticks := 0, prepareLevelReady := false, levelReady := true);
      if h.loc.Mine? {
        ScanNeverSetsFlag(n1.session.(stones := h.loc.stonesLeft), h.loc, h.captured, false, cfg);
        ScanNeverSetsFlag(s2.(stones := h.loc.stonesLeft), h.loc, h.captured, false, cfg);
      }
    case OneSecondUpdateTicked(h) =>
      ScanNeverSetsFlag(s, h.loc, h.captured, false, cfg);
    case _ =>
  }

  /**
   A remote player, or one busy doing something, cannot raise the staircase
   flag: the button press and the inventory check both ignore them, whatever
   the remembered staircase count.
   */
  lemma IneligiblePlayerInert(s: Session, isActionButton: bool, p: Player)
    requires !p.isLocal || p.isBusy
    ensures OnButtonPressed(s, isActionButton, p) == s
    ensures CheckStaircasesInInventory(s, p) == s
    ensures OnInventoryChanged(s, p) == s
  {
  }

  /** A warp always clears the staircase flag. */
  lemma WarpClearsFlag(s: Session, cfg: Config)
    requires WellFormed(s)
    ensures !Step(s, Warped, cfg).session.staircaseUsed && Step(s, Warped, cfg).out == []
  {
  }

  // ---------------------------------------------------------------------------
  // Marks within a session
  // ---------------------------------------------------------------------------

  /** `after` is `before` with every unknown cell classified from `tiles` on level `level`. */
  ghost predicate Swept(before: Grid<Mark>, after: Grid<Mark>, tiles: Grid<Tile>, level: int)
  {
    && Valid(before) && Valid(after) && SameShape(before, after)
    && forall q :: InBounds(before, q) ==> Get(after, q) == NewMark(Get(before, q), Lookup(tiles, q, None), level)
  }

  /** A sweep keeps every known mark, and a cell it newly marks shows that mark's tile. */
  lemma SweptExtends(before: Grid<Mark>, after: Grid<Mark>, tiles: Grid<Tile>, level: int)
    requires Swept(before, after, tiles, level)
    ensures Extends(before, after)
    ensures forall q :: InBounds(before, q) && Get(before, q) == Unknown && Get(after, q) != Unknown ==>
      Get(after, q) == Classify(Lookup(tiles, q, None), level)
  {
  }

  /** The second half of an update tick either leaves the grid alone or sweeps the captured layer. */
  lemma AfterLocationCheckMarks(s: Session, h: Host, cfg: Config)
    requires WellFormed(s)
    ensures var m := AfterLocationCheck(s, h, cfg).session.marks;
      m == s.marks || (h.loc.Mine? && Swept(s.marks, m, h.captured, h.loc.mineLevel))
  {
    if !(s.prepareLevelReady && !s.doLocationChecks && s.ticks < ReadyDelay) {
      var s2 := if s.prepareLevelReady && !s.doLocationChecks
                then s.(ticks := 0, prepareLevelReady := false, levelReady := true) else s;
      if s2.inMine && h.loc.Mine? && s2.stones > h.loc.stonesLeft {
        TryFindSpec(s2.(stones := h.loc.stonesLeft), h.loc, h.captured, false, cfg);
      }
    }
  }

  /**
   Every callback other than a reset tick keeps the grid's shape and every
   known mark; a cell it newly marks shows, in the layer being scanned, the
   tile of that mark on that level.
   */
  lemma StepExtendsMarks(s: Session, e: Event, cfg: Config)
    requires WellFormed(s) && !IsReset(s, e)
    ensures var m := Step(s, e, cfg).session.marks;
      && Extends(s.marks, m)
      && (forall q :: InBounds(s.marks, q) && Get(s.marks, q) == Unknown && Get(m, q) != Unknown ==>
            (e.UpdateTicked? || e.OneSecondUpdateTicked?) && e.host.loc.Mine?
            && Get(m, q) == Classify(Lookup(e.host.captured, q, None), e.host.loc.mineLevel))
  {
    var m := Step(s, e, cfg).session.marks;
    match e
    case UpdateTicked(h) =>
      if !s.doLocationChecks {
        AfterLocationCheckMarks(s, h, cfg);
        assert m == AfterLocationCheck(s, h, cfg).session.marks;
        if m != s.marks {
          SweptExtends(s.marks, m, h.captured, h.loc.mineLevel);
        }
      }
    case OneSecondUpdateTicked(h) =>
      if s.inMine && s.levelReady && h.loc.Mine? && h.loc.monsters < s.monsters {
        TryFindSpec(s, h.loc, h.captured, false, cfg);
        SweptExtends(s.marks, m, h.captured, h.loc.mineLevel);
      }
    case _ =>
  }

  /** No callback of `es` is a reset tick when it arrives. */
  predicate NoReset(s: Session, es: seq<Event>, cfg: Config)
    requires WellFormed(s)
    decreases |es|
  {
    es == [] || (!IsReset(s, es[0]) && NoReset(Step(s, es[0], cfg).session, es[1..], cfg))
  }

  /** Between two resets, discovery marks are never rewritten or cleared. */
  lemma {:induction false} MarksPersistUntilReset(s: Session, es: seq<Event>, cfg: Config)
    requires WellFormed(s) && NoReset(s, es, cfg)
    ensures Extends(s.marks, Run(s, es, cfg).session.marks)
    decreases |es|
  {
    if es != [] {
      var s1 := Step(s, es[0], cfg).session;
      StepExtendsMarks(s, es[0], cfg);
      MarksPersistUntilReset(s1, es[1..], cfg);
    }
  }

  // ---------------------------------------------------------------------------
  // The configuration only gates output
  // ---------------------------------------------------------------------------

  lemma TryFindGating(s: Session, loc: Location, tiles: Grid<Tile>, initial: bool, c1: Config, c2: Config)
    requires WellFormed(s)
    ensures TryFindLaddersOrShafts(s, loc, tiles, initial, c1).session == TryFindLaddersOrShafts(s, loc, tiles, initial, c2).session
    ensures Gated(TryFindLaddersOrShafts(s, loc, tiles, initial, c1).out, c1)
    ensures Quiet(c1) ==> TryFindLaddersOrShafts(s, loc, tiles, initial, c1).out == []
  {
    if loc.Mine? {
      ScanOutputGating(s.marks, tiles, loc.mineLevel, initial, s.staircaseUsed, c1, c2);
    }
  }

  lemma CheckLocationGating(s: Session, h: Host, c1: Config, c2: Config)
    requires WellFormed(s)
    ensures CheckLocation(s, h, c1).session == CheckLocation(s, h, c2).session
    ensures Gated(CheckLocation(s, h, c1).out, c1)
    ensures Quiet(c1) ==> CheckLocation(s, h, c1).out == []
  {
    if h.loc.Mine? {
      var layer := h.loc.buildings;
      var s1 := s.(levelReady := false, inMine := true, stones := h.loc.stonesLeft, monsters := 0);
      var s3 := CheckStaircasesInInventory(s1, h.player).(marks := Filled(layer.width, layer.height, Unknown));
      assert CheckAmountOfMonstersInLevel(s3, h.loc, layer, false, c1) == Next(s3.(monsters := h.loc.monsters), []);
      TryFindGating(s3.(monsters := h.loc.monsters), h.loc, layer, true, c1, c2);
      var n5 := TryFindLaddersOrShafts(s3.(monsters := h.loc.monsters), h.loc, layer, true, c1);
      assert CheckLocation(s, h, c1).out == [] + n5.out;
    }
  }

  lemma AfterLocationCheckGating(s: Session, h: Host, c1: Config, c2: Config)
    requires WellFormed(s)
    ensures AfterLocationCheck(s, h, c1).session == AfterLocationCheck(s, h, c2).session
    ensures Gated(AfterLocationCheck(s, h, c1).out, c1)
    ensures Quiet(c1) ==> AfterLocationCheck(s, h, c1).out == []
  {
    var s2 := if s.prepareLevelReady && !s.doLocationChecks
              then s.(ticks := 0, prepareLevelReady := false, levelReady := true) else s;
    if h.loc.Mine? {
      TryFindGating(s2.(stones := h.loc.stonesLeft), h.loc, h.captured, false, c1, c2);
    }
  }

  /**
   The configuration decides only what is announced: every callback leaves the
   same session whatever the switches say, plays a sound only when sound is on,
   shows a message only when messages are on, and with both off makes no host
   call.
   */
  lemma StepOutputGating(s: Session, e: Event, c1: Config, c2: Config)
    requires WellFormed(s)
    ensures Step(s, e, c1).session == Step(s, e, c2).session
    ensures Gated(Step(s, e, c1).out, c1)
    ensures Quiet(c1) ==> Step(s, e, c1).out == []
  {
    match e
    case UpdateTicked(h) =>
      if !(s.doLocationChecks && s.ticks < ResetDelay) {
        var s0 := s.(ticks := 0, doLocationChecks := false);
        var n1 := if s.doLocationChecks then CheckLocation(s0, h, c1) else Next(s, []);
        if s.doLocationChecks {
          CheckLocationGating(s0, h, c1, c2);
        }
        AfterLocationCheckGating(n1.session, h, c1, c2);
        GatedConcat(n1.out, AfterLocationCheck(n1.session, h, c1).out, c1);
      }
    case OneSecondUpdateTicked(h) =>
      TryFindGating(s, h.loc, h.captured, false, c1, c2);
    case _ =>
  }

  /**
   Over any sequence of callbacks, the switches change no state, each kind of
   host call appears only while its switch is on, and with both outputs off
   nothing is announced.
   */
  lemma {:induction false} RunOutputGating(s: Session, es: seq<Event>, c1: Config, c2: Config)
    requires WellFormed(s)
    ensures Run(s, es, c1).session == Run(s, es, c2).session
    ensures Gated(Run(s, es, c1).out, c1)
    ensures Quiet(c1) ==> Run(s, es, c1).out == []
    decreases |es|
  {
    if es != [] {
      var n1 := Step(s, es[0], c1);
      StepOutputGating(s, es[0], c1, c2);
      RunOutputGating(n1.session, es[1..], c1, c2);
      GatedConcat(n1.out, Run(n1.session, es[1..], c1).out, c1);
    }
  }
}
